=== FILE: README.md ===
# AirBnB clone v3 REST views, modelled in Dafny

This project models the resource handlers of the AirBnB clone's REST API
(`api/v1/views/`) over an abstract object store, together with the `City`
model's relationship logic and the per-class counters behind `/stats`.

- **The store** (`objects.dfy`, `engine.dfy`). `models.storage` is a map
  from a composite key (class and id) to the object's attributes, plus the
  order in which the objects were added. `storage.all(cls)` yields objects in
  that order. `Engine.Storage` is the single shared store. Its engine is the
  JSON file engine or the relational engine, and is fixed when the store is
  created. The two engines differ only in what a delete takes with it. The
  relational engine applies the cascades declared in `models/city.py`: a
  State takes its Cities (`state_id` is declared ON DELETE CASCADE), and a
  City takes its Places. The City's `places` relationship is declared with
  `passive_deletes=True`, so Places that were never loaded are removed by
  the foreign-key rule on `places.city_id`. That rule is declared in
  `models/place.py`, which is not part of this model. The model assumes it
  cascades, both for the Places of a deleted City and for the Places of the
  Cities a deleted State takes with it. Nothing else is removed.
- **Request bodies** (`json.dfy`). `request.get_json(silent=True)` is either
  `NoJson` (missing, invalid or `null`) or a JSON object. The Python
  operations the views apply to bodies are modelled exactly: truthiness,
  `dict.get`, `len` followed by iteration, and `in` (list membership,
  substring search, or TypeError). An empty object `{}` is falsy: every
  handler that tests `if data` treats it like a missing body ("Not a JSON"),
  while `search_place`, which tests `data is None` first, returns every
  Place for it. A JSON body that is not an object but is falsy (`[]`, `""`,
  `0`, `false`) passes the same tests as `{}` and is represented by it.
- **Responses** (`views.dfy`). A handler returns a payload with 200 or
  201, a 404, a 400 with its description, or a 500 for an exception the
  handler raises.
- **Handlers.** Each route file is one module: `StatesView`, `CitiesView`,
  `AmenitiesView`, `UsersView`, `PlacesView`, `ReviewsView`,
  `PlaceAmenitiesView` and `IndexView`. `PlaceSearch` holds `search_place`.
  Getters are functions that read the store. Create, update and delete
  handlers are methods that modify the store. Their contracts state the
  whole new store and the exact order of the error checks.
- **Updates** (`views.dfy`). Every update handler runs the same loop,
  `Views.SetAttributes`: `for key, value in data.items()`, `setattr` for
  each key outside the handler's ignore list, and `obj.save()` either after
  each `setattr` (amenities, cities, places, reviews) or once after the loop
  (states, users); then `jsonify(obj.to_dict())`. Both the loop and
  `save()` can raise. `setattr` raises TypeError for `__class__` and
  `__dict__`, and AttributeError for `__weakref__` on any object and for
  `places` on a City in file mode, which is a read-only property
  (models/city.py:38-50). `update_user` computes the digest of `password`
  inside the loop, which raises for a non-string or a non-ASCII string. A
  body key `save` or `to_dict` shadows the method the handler calls next,
  and calling a JSON value raises TypeError. The loop is specified by
  `Views.Update`, over the body's keys in iteration order, and
  `Views.UpdateMeaning` proves what it does: it succeeds exactly when the
  update is `Views.Accepted`, and then leaves the object with `Views.Merge`'s
  attributes (the body's keys outside the ignore list set, every other
  attribute as it was). When it fails, the handler answers 500 and the
  store keeps what the last `save()` stored (`Views.PartialSave`).
- **What a request leaves behind.** `api/v1/app.py:37-39` closes the
  storage when each request ends. What `close()` does is defined in
  `models/engine/`, which is not part of this model; the model assumes that
  closing discards whatever was changed in memory and not saved, whichever
  engine is used. So the store in the model holds what was saved: an attribute set by `setattr` counts only once a
  `save()` after it has run (`Engine.Storage.Save`).
- **Search.** `search_place` is modelled by specification functions
  (`PlaceSearch.Search` and the functions it uses). The loop methods that
  mirror the handler are proved equal to them. The lemmas then state what a
  search returns. Kept as in the source: a search listing a stored City
  without a truthy `states` fails with UnboundLocalError
  (`PlaceSearch.SearchUnbound`).
- **Place–Amenity links** use the file-mode representation: the Place's
  `amenity_ids` list.

Ids of new objects (uuid4 in the source) are parameters of the create
handlers, required to be fresh. The MD5 hex digest used by `update_user` is
a function parameter `digest`.

## Model

| member | source | states |
|---|---|---|
| Json.Iterate | api/v1/views/places.py:218-221 | `len(v)` then `for x in v`: a list yields its items, a string its one-character strings, and anything else raises TypeError |
| Json.Contains | api/v1/views/places.py:233 | Python `x in coll`: list membership, substring occurrence for two strings, and TypeError for every other combination (both directions) |
| Json.Truthy | api/v1/views/states.py:94 | Python truthiness: a JSON value is falsy exactly when it is null, `false`, `0`, `""` or `[]` |
| Json.Present | api/v1/views/states.py:94 | `if data:` holds exactly when the body is an object with at least one key |
| Json.Has | api/v1/views/states.py:94 | `data and data.get(key)` is truthy exactly when the body holds a truthy `key`, and then the body itself is truthy |
| Objects.AllExactly | api/v1/views/states.py:23-24 | `storage.all(cls)` lists exactly the stored objects of the class, each once |
| Objects.WhereExactly | models/city.py:45-50 | a foreign-key scan lists exactly the stored objects whose attribute holds the target, in storage order (a subsequence of `all`) |
| Objects.CountInserted | tests/test_models/test_engine/test_db_storage.py:200-214 | saving a new object raises the count of its class by exactly one and leaves the other counts unchanged |
| Objects.CountRemoved | api/v1/views/states.py:69-70 | deleting a set of objects lowers each class's count by the number of its stored objects in the set |
| Objects.RemovedValid | api/v1/views/states.py:69-70 | after a delete the insertion order still lists each stored object exactly once |
| Objects.Find | api/v1/views/states.py:42-47 | `storage.get(cls, id)` finds an object exactly when the id is a string naming a stored object of that class, and returns its attributes |
| Objects.All | api/v1/views/states.py:23-24 | `storage.all(cls)` lists an id exactly when an object of that class with that id is in the storage order |
| Objects.Count | api/v1/views/index.py:41-60 | `storage.count(cls)` is zero exactly when no stored object has that class |
| CityModel.CityDefaults | models/city.py:28-30 | in file mode a City without its own `name` or `state_id` reads them as empty strings |
| CityModel.Places | models/city.py:38-50 | `city.places` lists a Place id exactly when that Place is stored and its `city_id` is the city's id |
| CityModel.CitiesOf | api/v1/views/places.py:224 | `state.cities` lists a City id exactly when that City is stored and its `state_id` is the state's id |
| CityModel.Cascade | models/city.py:16-27 | what a relational delete removes: always the object itself; for a State, also every stored City of it and every stored Place of those Cities, and nothing else; for a City, every stored Place of it and nothing else; for other classes, only the object |
| CityModel.PlacesExactly | models/city.py:38-50 | `city.places` lists exactly the stored Places whose `city_id` is the city's id, in storage order |
| CityModel.PlacesEmpty | models/city.py:45-50 | `city.places` is empty when no stored Place references the city |
| CityModel.CascadeLeavesNoOrphans | models/city.py:16-27 | after a relational cascade no remaining City references the deleted State and no remaining Place references a deleted City |
| Engine.Storage.New | api/v1/views/states.py:95-96 | `new(obj); save()` adds the object under a fresh key, appends it to the order, and keeps the store consistent |
| Engine.Storage.Delete | api/v1/views/states.py:69-70 | `delete(obj); save()` removes the object (and with the relational engine its cascade) and nothing else |
| Engine.Storage.Save | api/v1/views/states.py:135 | `obj.save()` on a stored object makes the store hold its current attributes, and changes nothing else |
| Engine.DeleteOneCounts | api/v1/views/places_reviews.py:79-86 | a non-cascading delete removes exactly the one object: its class count drops by one, other counts stay, and `get` no longer finds it |
| Engine.LoneCityCascade | models/city.py:16-27 | with the relational engine, a State whose only City has no Places takes exactly that City with it |
| Engine.DbDeleteStateWithOneCity | tests/test_models/test_engine/test_db_storage.py:163-184 | with the relational engine, deleting a State that has one City removes one state row and one city row |
| Engine.Deleted | api/v1/views/states.py:69-70 | after `delete(obj); save()` the object is gone and nothing new appears; the file engine removes only that object; the relational engine removes exactly its `Cascade`, and every other object keeps its attributes |
| Views.Merge | api/v1/views/states.py:130-134 | the attributes after the update loop: body keys outside the ignore list are set; ignored keys and keys the body does not name keep their values; no other key appears |
| Views.MergeUnique | api/v1/views/states.py:130-134 | the properties of `Merge` determine the updated attributes completely |
| Views.MergeIdempotent | api/v1/views/states.py:130-135 | sending the same update twice leaves the object as sending it once |
| Views.SetattrError | models/city.py:38-50 | `setattr` raises exactly for `__class__` and `__dict__` (TypeError), and for `__weakref__` on any object and `places` on a file-mode City (AttributeError, descriptors without a setter) |
| Views.Plain | api/v1/views/states.py:132-134 | the loop hands every body value to `setattr` unchanged |
| Views.OkValues | api/v1/views/users.py:138-143 | the values that were computed without raising, each equal to what was computed |
| Views.Respond | api/v1/views/states.py:136 | `jsonify(obj.to_dict())` with 200 exactly when the loop and `save()` raised nothing and no attribute `to_dict` shadows the method; 500 otherwise |
| Views.LoopStep | api/v1/views/cities.py:151-154 | one more pass of the loop body keeps `LoopDone`: a key that raises stops the loop, an ignored key changes nothing, any other key is set (and saved when each key is saved) |
| Views.LoopMeaning | api/v1/views/cities.py:151-154 | the loop over a prefix of the keys finishes exactly when no key raised and, when saving after each key, no `save` attribute shadows the method once something was set; it then holds those keys merged in; the store holds that too when each key is saved, and the original attributes otherwise |
| Views.LoopSettled | api/v1/views/cities.py:151-154 | once the loop has raised, the keys after that point change nothing |
| Views.PartialSave | api/v1/views/cities.py:151-154 | when saving after each key, a loop that raises at position `j` answers 500 with the store holding exactly the keys before `j` merged in |
| Views.UpdateMeaning | api/v1/views/states.py:130-136 | over all of the body's keys the update succeeds exactly when `Accepted`, and then stores and holds `Merge` of the body; with a single `save()` after the loop, a failure leaves the store as it was |
| Views.AllKeys | api/v1/views/states.py:132 | over all of the body's keys, the per-key conditions speak of every body key |
| Views.SetAttributes | api/v1/views/cities.py:151-154 | the loop, with `save()` after each key or once after the loop, computes `Update` and leaves in the store exactly what its last `save()` stored |
| Views.UpdateObject | api/v1/views/states.py:130-136 | a found object and a non-empty body: 200 with `Merge` of the body, stored, exactly when `Accepted`; otherwise 500 with the store as the last `save()` left it, unchanged when the failure came before a single `save()` |
| StatesView.GetStates | api/v1/views/states.py:23-24 | lists every stored State, each once |
| StatesView.GetState | api/v1/views/states.py:42-47 | the State when it is stored, 404 otherwise |
| StatesView.DeleteState | api/v1/views/states.py:66-73 | an existing State is deleted (with its cascade in relational mode) and `{}` returned; an unknown id gives 404 and changes nothing; afterwards `get` gives 404 |
| StatesView.CreateState | api/v1/views/states.py:93-101 | a truthy `name` stores one new State (201, count + 1); otherwise "Missing name" for a non-empty object, "Not a JSON" for a null body or `{}`, store unchanged |
| StatesView.UpdateState | api/v1/views/states.py:127-140 | 404 before "Not a JSON"; then 200 with every body key except `id`, `created_at`, `updated_at` set and stored, exactly when the update is `Accepted`; otherwise 500 with the store unchanged, since `save()` comes once after the loop |
| CitiesView.GetCities | api/v1/views/cities.py:31-37 | 404 for a missing State; otherwise exactly the stored Cities whose `state_id` is the state's id, in storage order |
| CitiesView.GetCity | api/v1/views/cities.py:54-59 | the City when it is stored, 404 otherwise |
| CitiesView.DeleteCity | api/v1/views/cities.py:77-84 | an existing City is deleted and `{}` returned (in relational mode none of its Places remain); an unknown id gives 404 and changes nothing |
| CitiesView.AddCity | api/v1/views/cities.py:107-120 | 404 for a missing State whatever the body; then "Missing name" before "Not a JSON"; on success the new City's `state_id` is the path id and it is listed among the state's cities |
| CitiesView.UpdateCity | api/v1/views/cities.py:146-159 | 404 before "Not a JSON"; then 200 with every body key except `created_at`, `updated_at`, `id`, `state_id` set and stored, exactly when the update is `Accepted` (a file-mode `places` key is not); otherwise 500 with the keys saved before the failing one |
| AmenitiesView.GetAmenities | api/v1/views/amenities.py:23-24 | lists every stored Amenity, each once |
| AmenitiesView.GetAmenity | api/v1/views/amenities.py:42-47 | the Amenity when it is stored, 404 for an unknown id |
| AmenitiesView.DeleteAmenity | api/v1/views/amenities.py:66-73 | an existing Amenity, and only it, is removed (count − 1); an unknown id gives 404 and changes nothing |
| AmenitiesView.CreateAmenity | api/v1/views/amenities.py:93-102 | a truthy `name` stores one new Amenity; "Not a JSON" checked before "Missing name" |
| AmenitiesView.UpdateAmenity | api/v1/views/amenities.py:129-142 | "Not a JSON" before 404 (a missing amenity with `{}` gives 400); then 200 with every body key except `id`, `created_at`, `updated_at` set and stored, exactly when the update is `Accepted`; otherwise 500 with the keys saved before the failing one |
| UsersView.HashPassword | api/v1/views/users.py:139-141 | `md5(value.encode("ascii")).hexdigest()`: the digest of an ASCII string, AttributeError for a non-string, UnicodeEncodeError for a non-ASCII string |
| UsersView.IsAscii | api/v1/views/users.py:140 | `encode("ascii")` accepts exactly the strings whose every character is below 128 |
| UsersView.UserValues | api/v1/views/users.py:138-143 | the loop hands `setattr` the digest (or its exception) for `password` and every other body value unchanged |
| UsersView.UserMerged | api/v1/views/users.py:138-144 | an accepted User update stores every non-ignored body value as sent, and `password` as the digest of the string sent |
| UsersView.PasswordRaises | api/v1/views/users.py:139-141 | a `password` that is not an ASCII string makes the User update raise |
| UsersView.GetUsers | api/v1/views/users.py:24-25 | lists every stored User, each once |
| UsersView.GetUser | api/v1/views/users.py:43-48 | the User when it is stored, 404 otherwise |
| UsersView.DeleteUser | api/v1/views/users.py:66-73 | an existing User, and only it, is removed (count − 1) and `{}` answered, in both engines (the relational cascades from a User are under Left out); 404 otherwise with the store unchanged |
| UsersView.CreateUser | api/v1/views/users.py:95-106 | truthy `email` and `password` store exactly one new User (that class's count + 1, others unchanged); "Missing email" before "Missing password"; a null body or `{}` gives "Not a JSON" |
| UsersView.UpdateUser | api/v1/views/users.py:133-149 | 404 before "Not a JSON"; then 200 exactly when the update is `Accepted`, storing every body key except `id`, `created_at`, `updated_at`, `email`, with `password` stored as `digest` of the string sent; otherwise 500 with the store unchanged, which a `password` that is not an ASCII string always causes |
| PlacesView.GetPlaces | api/v1/views/places.py:33-39 | 404 for a missing City; otherwise exactly the Places that reference it, in storage order |
| PlacesView.GetPlace | api/v1/views/places.py:56-61 | the Place when it is stored, 404 otherwise |
| PlacesView.DeletePlace | api/v1/views/places.py:79-86 | an existing Place, and only it, is removed (count − 1) and `{}` answered, in both engines (the relational cascades from a Place are under Left out); 404 otherwise with the store unchanged |
| PlacesView.CreatePlace | api/v1/views/places.py:113-129 | succeeds exactly when the City, the User named by `user_id` and a truthy `name` exist, with `city_id` forced to the path id; errors in the order "Missing name", "Missing user_id", "Not a JSON", 404 |
| PlacesView.UpdatePlace | api/v1/views/places.py:156-169 | "Not a JSON" before 404; then 200 with every body key except `id`, `city_id`, `user_id`, `created_at`, `updated_at` set and stored, exactly when the update is `Accepted`; otherwise 500 with the keys saved before the failing one |
| PlaceSearch.Search | api/v1/views/places.py:206-251 | a null body gives "Not a JSON" and no results; a body with no truthy `states`, `cities` or `amenities` (including `{}`) returns every stored Place |
| PlaceSearch.CityPlaces | api/v1/views/places.py:224-225 | extending with `city.places` city after city collects only stored Places |
| PlaceSearch.StatePlaces | api/v1/views/places.py:217-225 | the states loop collects only stored Places |
| PlaceSearch.CityContribution | api/v1/views/places.py:231-234 | an id naming no stored City adds nothing; without a truthy `states`, reading `state_ids` raises exactly for a stored City; what it adds are stored Places |
| PlaceSearch.FromCities | api/v1/views/places.py:227-234 | the cities loop adds only stored Places, and nothing at all when it runs without a truthy `states` |
| PlaceSearch.HasAll | api/v1/views/places.py:242-246 | the inner amenities loop answers true only when every requested id is `in` the place's `amenity_ids` |
| PlaceSearch.KeepWithAll | api/v1/views/places.py:236-249 | the filter keeps only candidates, and no more of them than there are |
| PlaceSearch.KeepWithAllStep | api/v1/views/places.py:241-248 | one more candidate is kept exactly when its `amenity_ids` list holds every requested id |
| PlaceSearch.Matches | api/v1/views/places.py:206-251 | a search that does not raise returns only stored Places |
| PlaceSearch.FromCitiesSettled | api/v1/views/places.py:230-234 | once the cities loop has raised, later city ids do not matter |
| PlaceSearch.HasAllSettled | api/v1/views/places.py:242-246 | the inner amenity loop stops at the first missing or raising test |
| PlaceSearch.KeepWithAllSettled | api/v1/views/places.py:241-248 | once the filter has raised, later candidates do not matter |
| PlaceSearch.CityPlacesExactly | api/v1/views/places.py:224-225 | extending with `city.places` city after city collects exactly the places of those cities |
| PlaceSearch.StatePlacesExactly | api/v1/views/places.py:217-225 | each listed id naming a stored State contributes exactly the places of its cities; unknown ids add nothing |
| PlaceSearch.CitiesExactly | api/v1/views/places.py:227-234 | with listed states, the cities loop never raises and adds exactly the places of listed stored Cities whose `state_id` is not listed; unknown ids add nothing |
| PlaceSearch.NoDoubleCounting | api/v1/views/places.py:217-234 | no place contributed by a listed State is contributed again by a listed City |
| PlaceSearch.UnboundExactly | api/v1/views/places.py:227-234 | without a truthy `states`, the cities loop raises UnboundLocalError exactly when a listed id names a stored City, and adds nothing otherwise |
| PlaceSearch.SearchUnbound | api/v1/views/places.py:233 | a search with a `cities` list naming a stored City and no truthy `states` fails with UnboundLocalError |
| PlaceSearch.HasAllList | api/v1/views/places.py:242-246 | for a list of amenity ids the inner loop answers exactly "every requested id is in the list" |
| PlaceSearch.KeepWithAllExactly | api/v1/views/places.py:236-249 | the filter keeps exactly the candidates whose `amenity_ids` contain every requested id, preserving order (a subsequence of the candidates) |
| PlaceSearch.SearchSelects | api/v1/views/places.py:206-251 | a search by a non-empty list of states, with `cities` and `amenities` each a list or omitted (falsy), returns exactly the places of the listed states' cities, plus those of listed cities outside those states, that have every listed amenity |
| PlaceSearch.SearchEverything | api/v1/views/places.py:213-215 | with neither states nor cities, a search starts from every stored Place and keeps those with all listed amenities (all of them when `amenities` is omitted or falsy) |
| PlaceSearch.CollectFromStates | api/v1/views/places.py:217-225 | the states loop with its inner cities loop computes `StatePlaces` |
| PlaceSearch.CollectFromCities | api/v1/views/places.py:227-234 | the cities loop computes `FromCities`, including its exceptions |
| PlaceSearch.FilterByAmenities | api/v1/views/places.py:236-249 | the filter loop with its `break` computes `KeepWithAll`, including its exceptions |
| PlaceSearch.SearchPlaces | api/v1/views/places.py:206-251 | the handler's response equals `Search` of the store and the body |
| ReviewsView.GetReviews | api/v1/views/places_reviews.py:33-39 | 404 for a missing Place; otherwise exactly the Reviews that reference it |
| ReviewsView.GetReview | api/v1/views/places_reviews.py:56-61 | the Review when it is stored, 404 otherwise |
| ReviewsView.ReviewsOf | api/v1/views/places_reviews.py:35 | `place.reviews` lists a Review id exactly when that Review is stored and its `place_id` is the place's id |
| ReviewsView.DeleteReview | api/v1/views/places_reviews.py:79-86 | removes exactly that Review; an unknown id gives 404 and leaves the store unchanged |
| ReviewsView.CreateReview | api/v1/views/places_reviews.py:113-129 | succeeds exactly when the Place, the User and a truthy `text` exist, with `place_id` forced to the path id; errors in the order "Missing text", "Missing user_id", "Not a JSON", 404 |
| ReviewsView.UpdateReview | api/v1/views/places_reviews.py:156-169 | "Not a JSON" before 404; then 200 with every body key except `id`, `created_at`, `updated_at`, `user_id`, `place_id` set and stored, exactly when the update is `Accepted`; otherwise 500 with the keys saved before the failing one |
| PlaceAmenitiesView.RemoveFirst | api/v1/views/places_amenities.py:56 | `list.remove` takes exactly one occurrence out of the list (length − 1, multiset minus one) |
| PlaceAmenitiesView.FirstIndex | api/v1/views/places_amenities.py:56 | the position `remove` acts on: the first occurrence |
| PlaceAmenitiesView.RemoveFirstAt | api/v1/views/places_amenities.py:56 | `remove` deletes the first occurrence and keeps the rest in order |
| PlaceAmenitiesView.RemoveAppended | api/v1/views/places_amenities.py:56 | removing an id just appended, and absent before, restores the list |
| PlaceAmenitiesView.LinkedAmenities | api/v1/views/places_amenities.py:30-31 | for a list of links, exactly the stored Amenities whose id is linked; for any links, the Amenities whose id is `in` them, and TypeError exactly when `in` raises |
| PlaceAmenitiesView.GetAmenitiesForPlace | api/v1/views/places_amenities.py:27-33 | 404 for a missing Place; otherwise the stored Amenities whose id is `in` the place's `amenity_ids` (for a list, exactly the linked ones; for a string, those occurring in it), and a 500 TypeError exactly when some Amenity is stored and `amenity_ids` is neither a list nor a string |
| PlaceAmenitiesView.Unlink | api/v1/views/places_amenities.py:48-64 | 404 and no change when the place or amenity is missing, and also when the amenity is not linked (`remove` raises ValueError); 500 AttributeError and no change when `amenity_ids` is not a list; otherwise the place's list loses the first occurrence of its id and keeps the rest in order, the place's other attributes and every other object are unchanged, and `{}` is returned |
| PlaceAmenitiesView.Link | api/v1/views/places_amenities.py:82-95 | 404 when the place or amenity is missing; an already linked amenity gives 200 and no change; otherwise, for a list, its id is appended and 201 returned; when `amenity_ids` is not a list nothing changes: 200 if the id occurs in a string, 500 AttributeError (no `append`) for a string without it, 500 TypeError for any other value |
| PlaceAmenitiesView.LinkIdempotent | api/v1/views/places_amenities.py:85-95 | linking twice is linking once: the second request gives 200 and changes nothing |
| PlaceAmenitiesView.LinkThenUnlink | api/v1/views/places_amenities.py:48-62 | unlinking an amenity just linked (and not linked before) restores the place's list |
| PlaceAmenitiesView.DeleteAmenityFromPlace | api/v1/views/places_amenities.py:48-64 | the handler's response and new store are those of `Unlink` |
| PlaceAmenitiesView.AddAmenityToPlace | api/v1/views/places_amenities.py:82-95 | the handler's response and new store are those of `Link` |
| IndexView.GetStatus | api/v1/views/index.py:31-38 | always `{"status": "OK"}` with 200 |
| IndexView.GetStats | api/v1/views/index.py:41-60 | exactly the six keys amenities, cities, places, reviews, states, users, each holding `storage.count` of its class |

## Left out

- HTTP and Flask plumbing (`api/v1/app.py`, blueprint registration, CORS, the 404 handler, `jsonify`, `to_dict`) is not modelled. Responses carry the stored attributes, or the ids of listed objects, in place of the JSON they would serialise to.
- JSON values are null, booleans, integers, strings and lists. Floats and nested objects are not modelled, so no body value is a dict and `setattr` of `__dict__` always raises.
- A request body that is truthy JSON but not an object, such as `[1]` or `"x"`, is not modelled. It makes the handlers raise at `.get` or `.items()`, except that an update of a missing object answers 404 before it reaches `.items()`. Falsy non-object bodies are modelled as `{}` (see above).
- `Json.Contains` compares values structurally. It does not model Python's `True == 1` or `1 == 1.0` equalities.
- Timestamps are not modelled: `created_at`, and the `updated_at` bump of every `save()`. Saving to disk and reloading are not modelled either.
- `BaseModel(**kwargs)` is not part of this model. A create handler stores the body's fields as the new object's attributes, under the fresh id it is given. Keys such as `id`, `created_at` or `__class__` in the body are not reinterpreted.
- Objects.Find: `storage.get` is modelled to find nothing for an id that is not a string. The storage engines are not part of this model, so what they do with a number or a list as an id is not captured.
- The storage engines are not part of this model. The file engine is modelled as removing only the deleted object. The relational engine applies the cascades declared in models/city.py. Because the City's `places` relationship has `passive_deletes=True`, the Places of a deleted City, and of the Cities a deleted State takes, that were never loaded are removed by the `places.city_id` foreign-key rule of models/place.py; the model assumes that rule cascades. The further cascade from Place to Review, and the cleanup of the Place–Amenity join table, are declared in models/place.py, which is not part of this model. No file-engine cascade code is modelled.
- Relational-mode constraints (`nullable=False`, and foreign keys that must reference existing rows) are not modelled.
- `state.cities` and `place.reviews` are modelled as foreign-key scans, like `city.places`. Their definitions live in models/state.py and models/place.py, which are not part of this model. So is the Place class's own default for `city_id`.
- PlaceAmenitiesView.Link: the file-mode setter `place.amenities = amenity` is assumed to append the amenity's id to `amenity_ids`. Its definition in models/place.py is not part of this model.
- PlaceAmenitiesView.Link: the test `amenity in place.amenities` is modelled as `Json.Contains(amenity_ids, amenity_id)`. Under the assumed getter, this is what the test gives for a stored Amenity.
- PlaceAmenitiesView.GetAmenitiesForPlace: the file-mode getter `place.amenities` is assumed to return the stored Amenities whose id is `in` the place's `amenity_ids`, in storage order.
- PlaceAmenitiesView.Unlink: the relational-mode branch (`place.amenities.remove(amenity)` on the association) is not modelled separately. Links are always the `amenity_ids` list. An `amenity_ids` that is not a list is taken to raise AttributeError on `remove` and `append`.
- UsersView.UpdateUser: MD5 is the parameter `digest`. "Never the raw value" is stated only as "the stored value is `digest` of the supplied one".
- UsersView.CreateUser: stores the body as given, `password` included. Any hashing done by models/user.py is not part of this model.
- PlaceSearch.Search: an id in `states` or `cities` that is not a string never names a stored object. Unhashable ids, such as nested lists, are not modelled raising inside the engine.
- Concurrency between requests is not modelled: each handler runs alone on the shared store.
- Views.SetattrError: `setattr` is modelled as raising only for `__class__`, `__dict__`, `__weakref__` and a file-mode City's `places`. The other read-only properties (`cities` on a file-mode State, `reviews` and `amenities` on a file-mode Place) and the relational mappings' relationship attributes are declared in models/state.py, models/place.py and the other model files, which are not part of this model, so setting them is modelled as succeeding.
- Engine.Storage.Save: the relational engine writes only mapped columns, so an attribute the schema does not declare stays in memory only. The schemas are not part of this model: the model stores every attribute that was set.
- Engine.Storage.Save: what `storage.close()` does at the end of each request (api/v1/app.py:37-39) is defined in models/engine/file_storage.py and models/engine/db_storage.py, which are not part of this model. The model assumes it discards every change not yet saved, so the store holds what the last `save()` stored. `Views.PartialSave` and the unchanged store after a failed single-save update rest on that assumption.
- Views.UpdateObject: with a body key `to_dict`, the model stores the merged object and then answers 500 when `to_dict()` is called. The file engine's own `save()` serialises every object through `to_dict()` and may raise before it writes. models/engine/file_storage.py is not part of this model, so that earlier failure is not captured.
- StatesView.GetState: an object whose attributes hold `to_dict` is answered with 200 by every getter in the model, while the source's `to_dict()` call would raise. Such an object reaches the model's store only through a create or an update that stores a `to_dict` key.
- StatesView.CreateState: `Cls(**data)` followed by `save()` and `to_dict()`. A body key `save` or `to_dict` would shadow those methods, and `BaseModel.__init__` decides what `__class__` and the timestamps do. models/base_model.py is not part of this model, so every create handler stores the body's fields as given.
- PlaceAmenitiesView.Link: a Place created without its own `amenity_ids` reads the class-level list `amenity_ids = []` declared in models/place.py, which is not part of this model. In the source, appending through that attribute changes the one list shared by every such Place. The model gives the linked Place a list of its own and leaves the other Places unchanged, so this aliasing is not captured.
- PlaceAmenitiesView.Unlink: `amenity_ids.remove(...)` changes the list in place. For a Place without its own list that is the class-level list shared by every such Place. The model changes only the one Place, so this aliasing is not captured.
- UsersView.DeleteUser: in relational mode, deleting a User may cascade to, or be refused because of, its Places and Reviews. Those relationships are declared in models/user.py and models/place.py, which are not part of this model. The model removes the one User in both engines.
- PlacesView.DeletePlace: in relational mode, deleting a Place may cascade to its Reviews and its rows in the Place–Amenity join table. These are declared in models/place.py, which is not part of this model. The model removes the one Place in both engines.

=== FILE: amenities.dfy ===
/**
 * api/v1/views/amenities.py: the `/amenities` and `/amenities/<amenity_id>` routes.
 */
module AmenitiesView {
  import opened Json
  import opened Objects
  import opened Engine
  import opened Views

  /** The body keys `update_amenity` never copies onto the Amenity. */
  const AmenityIgnored: set<string> := {"id", "created_at", "updated_at"}

  /** `GET /amenities`: every stored Amenity, each once. */
  function GetAmenities(s: Storage): (o: Outcome)
    reads s
    requires s.Valid()
    ensures o.Success? && o.code == 200 && o.payload.Items?
    ensures forall id :: id in o.payload.ids <==> Key(Amenity, id) in s.objects
    ensures NoDup(o.payload.ids)
  {
    AllExactly(s.View(), Amenity);
    Success(200, Items(All(s.View(), Amenity)))
  }

  /** `GET /amenities/<amenity_id>`: the Amenity, or 404 for an unknown id. */
  function GetAmenity(s: Storage, id: string): (o: Outcome)
    reads s
    ensures o.Success? <==> Key(Amenity, id) in s.objects
    ensures o.Success? ==> o == Success(200, Item(id, s.objects[Key(Amenity, id)]))
    ensures !o.Success? ==> o == NotFound
  {
    match Find(s.View(), Amenity, Str(id))
    case Some(attrs) => Success(200, Item(id, attrs))
    case None => NotFound
  }

  /**
   * `DELETE /amenities/<amenity_id>`: an existing Amenity is deleted, and
   * nothing else, and `{}` is returned; an unknown id gives 404 and changes
   * nothing.
   */
  method DeleteAmenity(s: Storage, id: string) returns (o: Outcome)
    requires s.Valid()
    modifies s
    ensures s.Valid()
    ensures Key(Amenity, id) in old(s.objects) ==>
      o == Success(200, Empty) && s.View() == Deleted(old(s.View()), s.engine, Key(Amenity, id))
    ensures Key(Amenity, id) !in old(s.objects) ==> o == NotFound && s.View() == old(s.View())
    ensures Key(Amenity, id) in old(s.objects) ==>
      s.objects == old(s.objects) - {Key(Amenity, id)} && Count(s.View(), Amenity) == Count(old(s.View()), Amenity) - 1
    ensures GetAmenity(s, id) == NotFound
  {
    if Find(s.View(), Amenity, Str(id)).Some? {
      DeleteOneCounts(s.View(), s.engine, Key(Amenity, id), Amenity);
      s.Delete(Key(Amenity, id));
      o := Success(200, Empty);
    } else {
      o := NotFound;
    }
  }

  /**
   * `POST /amenities`: a body with a truthy `name` becomes a new Amenity under
   * the fresh id `newId` (201); otherwise "Not a JSON" for a missing body or
   * `{}`, checked first, and "Missing name" for any other object.
   */
  method CreateAmenity(s: Storage, body: Body, newId: string) returns (o: Outcome)
    requires s.Valid() && Key(Amenity, newId) !in s.objects
    modifies s
    ensures s.Valid()
    ensures Has(body, "name") ==>
      && o == Success(201, Item(newId, body.fields))
      && s.View() == Inserted(old(s.View()), Key(Amenity, newId), body.fields)
      && Count(s.View(), Amenity) == Count(old(s.View()), Amenity) + 1
      && GetAmenity(s, newId) == Success(200, Item(newId, body.fields))
    ensures !Has(body, "name") ==>
      && o == BadRequest(if Present(body) then "Missing name" else NotAJson)
      && s.View() == old(s.View())
  {
    if Has(body, "name") {
      CountInserted(s.View(), Key(Amenity, newId), body.fields, Amenity);
      s.New(Key(Amenity, newId), body.fields);
      o := Success(201, Item(newId, body.fields));
    } else if !Present(body) {
      o := BadRequest(NotAJson);
    } else {
      o := BadRequest("Missing name");
    }
  }

  /**
   * `PUT /amenities/<amenity_id>`, the body's keys iterated in the order `keys`: "Not a JSON" comes first, then 404 for an unknown id;
   * otherwise every body key outside `AmenityIgnored` is set on the Amenity, each
   * followed at once by `save()`. It answers 200 with the merged Amenity
   * exactly when the update is `Accepted`; otherwise 500, and the store
   * keeps the keys saved before the one that raised.
   */
  method UpdateAmenity(s: Storage, id: string, body: Body, keys: seq<string>) returns (o: Outcome)
    requires s.Valid()
    requires body.Json? ==> forall k :: k in keys <==> k in body.fields
    modifies s
    ensures s.Valid()
    ensures !Present(body) ==> o == BadRequest(NotAJson) && s.View() == old(s.View())
    ensures Key(Amenity, id) !in old(s.objects) && Present(body) ==> o == NotFound && s.View() == old(s.View())
    ensures Key(Amenity, id) in old(s.objects) && Present(body) ==>
      var p := Update(Amenity, s.engine, old(s.objects[Key(Amenity, id)]), keys, Plain(body.fields), AmenityIgnored, true);
      o == Respond(id, p) && s.View() == Updated(old(s.View()), Key(Amenity, id), p.saved)
    ensures Key(Amenity, id) in old(s.objects) && Present(body) ==>
      (o.Success? <==> Accepted(Amenity, s.engine, old(s.objects[Key(Amenity, id)]), Plain(body.fields), AmenityIgnored, true))
    ensures Key(Amenity, id) in old(s.objects) && Present(body) && o.Success? ==>
      && o == Success(200, Item(id, s.objects[Key(Amenity, id)]))
      && s.View() == Updated(old(s.View()), Key(Amenity, id), Merge(old(s.objects[Key(Amenity, id)]), body.fields, AmenityIgnored))
      && Keeps(old(s.objects[Key(Amenity, id)]), s.objects[Key(Amenity, id)], AmenityIgnored)
      && SetsAll(s.objects[Key(Amenity, id)], body.fields, AmenityIgnored)
    ensures Key(Amenity, id) in old(s.objects) && Present(body) && !o.Success? ==> o.ServerError?
  {
    var key := Key(Amenity, id);
    if !Present(body) {
      o := BadRequest(NotAJson);
    } else if Find(s.View(), Amenity, Str(id)).None? {
      o := NotFound;
    } else {
      assert OkValues(Plain(body.fields)) == body.fields;
      o := UpdateObject(s, key, id, keys, Plain(body.fields), AmenityIgnored, true);
    }
  }
}

=== FILE: cities.dfy ===
/**
 * api/v1/views/cities.py: the `/states/<state_id>/cities` and
 * `/cities/<city_id>` routes.
 */
module CitiesView {
  import opened Json
  import opened Objects
  import opened CityModel
  import opened Engine
  import opened Views

  /** The body keys `update_city` never copies onto the City. */
  const CityIgnored: set<string> := {"created_at", "updated_at", "id", "state_id"}

  /**
   * `GET /states/<state_id>/cities`: 404 for an unknown State, otherwise
   * `state.cities`, the stored Cities whose `state_id` is the state's id.
   */
  function GetCities(s: Storage, stateId: string): (o: Outcome)
    reads s
    requires s.Valid()
    ensures o.Success? <==> Key(State, stateId) in s.objects
    ensures !o.Success? ==> o == NotFound
    ensures o.Success? ==> o.code == 200 && o.payload.Items?
    ensures o.Success? ==> forall c :: c in o.payload.ids <==>
      Key(City, c) in s.objects && AttrOf(City, s.objects[Key(City, c)], "state_id") == Str(stateId)
    ensures o.Success? ==> Subseq(o.payload.ids, All(s.View(), City))
  {
    if Find(s.View(), State, Str(stateId)).Some? then
      WhereExactly(s.View(), City, "state_id", stateId);
      Success(200, Items(CitiesOf(s.View(), stateId)))
    else
      NotFound
  }

  /** `GET /cities/<city_id>`: the City, or 404 for an unknown id. */
  function GetCity(s: Storage, id: string): (o: Outcome)
    reads s
    ensures o.Success? <==> Key(City, id) in s.objects
    ensures o.Success? ==> o == Success(200, Item(id, s.objects[Key(City, id)]))
    ensures !o.Success? ==> o == NotFound
  {
    match Find(s.View(), City, Str(id))
    case Some(attrs) => Success(200, Item(id, attrs))
    case None => NotFound
  }

  /**
   * `DELETE /cities/<city_id>`: an existing City is deleted (with the
   * relational engine its Places go with it, so none is left pointing at it)
   * and `{}` is returned; an unknown id gives 404 and changes nothing.
   */
  method DeleteCity(s: Storage, id: string) returns (o: Outcome)
    requires s.Valid()
    modifies s
    ensures s.Valid()
    ensures Key(City, id) in old(s.objects) ==>
      o == Success(200, Empty) && s.View() == Deleted(old(s.View()), s.engine, Key(City, id))
    ensures Key(City, id) in old(s.objects) && s.engine == DbEngine ==> Places(s.View(), id) == []
    ensures Key(City, id) !in old(s.objects) ==> o == NotFound && s.View() == old(s.View())
    ensures GetCity(s, id) == NotFound
  {
    if Find(s.View(), City, Str(id)).Some? {
      CascadeLeavesNoOrphans(s.View(), Key(City, id));
      s.Delete(Key(City, id));
      o := Success(200, Empty);
    } else {
      o := NotFound;
    }
  }

  /**
   * `POST /states/<state_id>/cities`: with an existing State and a body with
   * a truthy `name`, a new City under the fresh id `newId` whose `state_id`
   * is the path id whatever the body says (201). Otherwise 404 for an unknown
   * State, whatever the body, then "Missing name", then "Not a JSON".
   */
  method AddCity(s: Storage, stateId: string, body: Body, newId: string) returns (o: Outcome)
    requires s.Valid() && Key(City, newId) !in s.objects
    modifies s
    ensures s.Valid()
    ensures Key(State, stateId) in old(s.objects) && Has(body, "name") ==>
      && o == Success(201, Item(newId, body.fields["state_id" := Str(stateId)]))
      && s.View() == Inserted(old(s.View()), Key(City, newId), body.fields["state_id" := Str(stateId)])
      && newId in CitiesOf(s.View(), stateId)
      && Count(s.View(), City) == Count(old(s.View()), City) + 1
    ensures Key(State, stateId) !in old(s.objects) ==> o == NotFound && s.View() == old(s.View())
    ensures Key(State, stateId) in old(s.objects) && !Has(body, "name") ==>
      && o == BadRequest(if Present(body) then "Missing name" else NotAJson)
      && s.View() == old(s.View())
  {
    var state := Find(s.View(), State, Str(stateId));
    if Has(body, "name") && state.Some? {
      var attrs := body.fields["state_id" := Str(stateId)];
      CountInserted(s.View(), Key(City, newId), attrs, City);
      s.New(Key(City, newId), attrs);
      WhereExactly(s.View(), City, "state_id", stateId);
      o := Success(201, Item(newId, attrs));
    } else if state.None? {
      o := NotFound;
    } else if Present(body) {
      o := BadRequest("Missing name");
    } else {
      o := BadRequest(NotAJson);
    }
  }

  /**
   * `PUT /cities/<city_id>`, the body's keys iterated in the order `keys`: 404 for an unknown id comes first, then "Not a JSON";
   * otherwise every body key outside `CityIgnored` is set on the City, each
   * followed at once by `save()`. It answers 200 with the merged City
   * exactly when the update is `Accepted`; otherwise 500, and the store
   * keeps the keys saved before the one that raised.
   */
  method UpdateCity(s: Storage, id: string, body: Body, keys: seq<string>) returns (o: Outcome)
    requires s.Valid()
    requires body.Json? ==> forall k :: k in keys <==> k in body.fields
    modifies s
    ensures s.Valid()
    ensures Key(City, id) !in old(s.objects) ==> o == NotFound && s.View() == old(s.View())
    ensures Key(City, id) in old(s.objects) && !Present(body) ==>
      o == BadRequest(NotAJson) && s.View() == old(s.View())
    ensures Key(City, id) in old(s.objects) && Present(body) ==>
      var p := Update(City, s.engine, old(s.objects[Key(City, id)]), keys, Plain(body.fields), CityIgnored, true);
      o == Respond(id, p) && s.View() == Updated(old(s.View()), Key(City, id), p.saved)
    ensures Key(City, id) in old(s.objects) && Present(body) ==>
      (o.Success? <==> Accepted(City, s.engine, old(s.objects[Key(City, id)]), Plain(body.fields), CityIgnored, true))
    ensures Key(City, id) in old(s.objects) && Present(body) && o.Success? ==>
      && o == Success(200, Item(id, s.objects[Key(City, id)]))
      && s.View() == Updated(old(s.View()), Key(City, id), Merge(old(s.objects[Key(City, id)]), body.fields, CityIgnored))
      && Keeps(old(s.objects[Key(City, id)]), s.objects[Key(City, id)], CityIgnored)
      && SetsAll(s.objects[Key(City, id)], body.fields, CityIgnored)
    ensures Key(City, id) in old(s.objects) && Present(body) && !o.Success? ==> o.ServerError?
  {
    var key := Key(City, id);
    if Find(s.View(), City, Str(id)).None? {
      o := NotFound;
    } else if !Present(body) {
      o := BadRequest(NotAJson);
    } else {
      assert OkValues(Plain(body.fields)) == body.fields;
      o := UpdateObject(s, key, id, keys, Plain(body.fields), CityIgnored, true);
    }
  }
}

=== FILE: city.dfy ===
/**
 * The `City` class of models/city.py: its file-mode class defaults, the
 * file-mode `places` property (a scan over every stored Place), and the
 * relational-mode declarations that make deleting a State delete its Cities
 * (`state_id` references `states.id` ON DELETE CASCADE) and deleting a City
 * delete its Places (`cascade="all, delete-orphan"`).
 */
module CityModel {
  import opened Json
  import opened Objects

  /** `city.name` and `city.state_id` of a City that never had them set. */
  lemma CityDefaults(attrs: Attrs)
    ensures "name" !in attrs ==> AttrOf(City, attrs, "name") == Str("")
    ensures "state_id" !in attrs ==> AttrOf(City, attrs, "state_id") == Str("")
  {
  }

  /** `city.places`: the stored Places whose `city_id` is the city's id, in storage order. */
  function Places(db: Db, cityId: string): (r: seq<string>)
    ensures forall p :: p in r <==> Key(Place, p) in db.order && PlaceIn(db, p, cityId)
  {
    Where(db, Place, "city_id", cityId)
  }

  /** `state.cities`: the stored Cities whose `state_id` is the state's id, in storage order. */
  function CitiesOf(db: Db, stateId: string): (r: seq<string>)
    ensures forall c :: c in r <==>
      Key(City, c) in db.order && Key(City, c) in db.objects && AttrOf(City, db.objects[Key(City, c)], "state_id") == Str(stateId)
  {
    Where(db, City, "state_id", stateId)
  }

  /** The Place `p` is stored and its `city_id` names the city `cityId`. */
  ghost predicate PlaceIn(db: Db, p: string, cityId: string) {
    Key(Place, p) in db.objects && AttrOf(Place, db.objects[Key(Place, p)], "city_id") == Str(cityId)
  }

  /**
   * `places` lists exactly the stored Places that reference the city, each
   * once and in storage order.
   */
  lemma PlacesExactly(db: Db, cityId: string)
    requires Valid(db)
    ensures forall p :: p in Places(db, cityId) <==> PlaceIn(db, p, cityId)
    ensures Subseq(Places(db, cityId), All(db, Place))
  {
    WhereExactly(db, Place, "city_id", cityId);
  }

  /** A city no stored Place references has no places. */
  lemma PlacesEmpty(db: Db, cityId: string)
    requires Valid(db)
    requires forall p :: !PlaceIn(db, p, cityId)
    ensures Places(db, cityId) == []
  {
    forall k | k in db.objects && k.kind == Place
      ensures AttrOf(Place, db.objects[k], "city_id") != Str(cityId)
    {
      assert !PlaceIn(db, k.id, cityId);
    }
    WhereEmpty(db, Place, "city_id", cityId);
  }

  /** The keys of the stored Cities of the state `stateId`. */
  function CityKeys(db: Db, stateId: string): set<Key> {
    set k | k in db.objects && k.kind == City && AttrOf(City, db.objects[k], "state_id") == Str(stateId)
  }

  /** The keys of the stored Places whose `city_id` is one of `cityIds`. */
  function PlaceKeys(db: Db, cityIds: set<string>): set<Key> {
    set k | k in db.objects && k.kind == Place && AttrOf(Place, db.objects[k], "city_id").Str?
                            && AttrOf(Place, db.objects[k], "city_id").s in cityIds
  }

  /**
   * What the relational engine removes when `key` is deleted and committed:
   * a State takes its Cities and their Places with it, a City its Places,
   * any other object only itself.
   */
  function Cascade(db: Db, key: Key): (r: set<Key>)
    ensures key in r
    ensures forall k | k in r && k != key :: k in db.objects && (k.kind == City || k.kind == Place)
    ensures key.kind != State && key.kind != City ==> r == {key}
    ensures key.kind == State ==> CityKeys(db, key.id) <= r
    ensures key.kind == State ==> forall c, p | Key(City, c) in CityKeys(db, key.id) && PlaceIn(db, p, c) :: Key(Place, p) in r
    ensures key.kind == State ==> forall k | k in r && k != key ::
      k in CityKeys(db, key.id) || (k.kind == Place && exists c | Key(City, c) in CityKeys(db, key.id) :: PlaceIn(db, k.id, c))
    ensures key.kind == City ==> PlaceKeys(db, {key.id}) <= r
    ensures key.kind == City ==> forall k | k in r && k != key :: k.kind == Place && PlaceIn(db, k.id, key.id)
  {
    match key.kind
    case State =>
      var cities := CityKeys(db, key.id);
      {key} + cities + PlaceKeys(db, set c | c in cities :: c.id)
    case City => {key} + PlaceKeys(db, {key.id})
    case _ => {key}
  }

  /**
   * After a cascading delete no remaining City refers to a deleted State and
   * no remaining Place to a deleted City.
   */
  lemma CascadeLeavesNoOrphans(db: Db, key: Key)
    requires Valid(db)
    ensures key.kind == City ==> Places(Removed(db, Cascade(db, key)), key.id) == []
    ensures key.kind == State ==> CitiesOf(Removed(db, Cascade(db, key)), key.id) == []
    ensures key.kind == State ==> forall c :: Key(City, c) in CityKeys(db, key.id) ==>
      Places(Removed(db, Cascade(db, key)), c) == []
  {
    var gone := Cascade(db, key);
    var after := Removed(db, gone);
    RemovedValid(db, gone);
    if key.kind == City {
      WhereEmpty(after, Place, "city_id", key.id);
    } else if key.kind == State {
      WhereEmpty(after, City, "state_id", key.id);
      var cityIds := set k | k in CityKeys(db, key.id) :: k.id;
      forall c | Key(City, c) in CityKeys(db, key.id)
        ensures Places(after, c) == []
      {
        assert c in cityIds;
        forall k | k in after.objects && k.kind == Place
          ensures AttrOf(Place, after.objects[k], "city_id") != Str(c)
        {
          assert k !in PlaceKeys(db, cityIds);
        }
        WhereEmpty(after, Place, "city_id", c);
      }
    }
  }
}

=== FILE: engine.dfy ===
/**
 * `models.storage`: one store object shared by every view. Which engine backs
 * it (the JSON file engine or the relational engine) is fixed when it is
 * created; the two differ, as far as the views can see, only in what a
 * delete takes with it.
 */
module Engine {
  import opened Json
  import opened Objects
  import opened CityModel

  datatype EngineKind = FileEngine | DbEngine

  /**
   * The store after `storage.delete(obj); storage.save()`: the file engine
   * drops that one object, the relational engine also what the schema
   * declares to cascade from it.
   */
  function Deleted(db: Db, engine: EngineKind, key: Key): (r: Db)
    ensures key !in r.objects
    ensures r.objects.Keys <= db.objects.Keys
    ensures forall k | k in db.objects && k != key && (engine == FileEngine || (k.kind != City && k.kind != Place)) ::
      k in r.objects && r.objects[k] == db.objects[k]
    ensures engine == FileEngine ==> r.objects.Keys == db.objects.Keys - {key}
    ensures engine == DbEngine ==> forall k | k in db.objects && k !in Cascade(db, key) ::
      k in r.objects && r.objects[k] == db.objects[k]
    ensures engine == DbEngine ==> forall k | k in Cascade(db, key) :: k !in r.objects
  {
    Removed(db, if engine == DbEngine then Cascade(db, key) else {key})
  }

  class Storage {
    const engine: EngineKind
    var objects: map<Key, Attrs>
    var order: seq<Key>

    ghost predicate Valid()
      reads this
    {
      Objects.Valid(View())
    }

    /** The store as a value. */
    function View(): Db
      reads this
    {
      Db(objects, order)
    }

    constructor (engine: EngineKind)
      ensures Valid() && this.engine == engine
      ensures objects == map[] && order == []
    {
      this.engine := engine;
      objects := map[];
      order := [];
    }

    /** `storage.new(obj); storage.save()` for an object with a fresh id. */
    method New(key: Key, attrs: Attrs)
      requires Valid() && key !in objects
      modifies this
      ensures Valid()
      ensures View() == Inserted(old(View()), key, attrs)
    {
      InsertedValid(View(), key, attrs);
      objects := objects[key := attrs];
      order := order + [key];
    }

    /** `storage.delete(obj); storage.save()` for a stored object. */
    method Delete(key: Key)
      requires Valid() && key in objects
      modifies this
      ensures Valid() && key !in objects
      ensures View() == Deleted(old(View()), engine, key)
    {
      var gone := if engine == DbEngine then Cascade(View(), key) else {key};
      RemovedValid(View(), gone);
      objects := objects - gone;
      order := Without(order, gone);
    }

    /**
     * `obj.save()` on a stored object whose attributes in memory are `attrs`:
     * the store keeps them in place of what it held for that object.
     */
    method Save(key: Key, attrs: Attrs)
      requires Valid() && key in objects
      modifies this
      ensures Valid()
      ensures View() == Updated(old(View()), key, attrs)
    {
      UpdatedValid(View(), key, attrs);
      objects := objects[key := attrs];
    }
  }

  /**
   * A delete the engine does not cascade (any delete with the file engine, and
   * with the relational engine a delete of anything but a State or a City)
   * removes exactly the one object: its class count drops by one, the other
   * counts stay, and `get` no longer finds it.
   */
  lemma DeleteOneCounts(db: Db, engine: EngineKind, key: Key, kind: Kind)
    requires Valid(db) && key in db.objects
    requires engine == FileEngine || (key.kind != State && key.kind != City)
    ensures Deleted(db, engine, key).objects == db.objects - {key}
    ensures Count(Deleted(db, engine, key), kind) == Count(db, kind) - (if key.kind == kind then 1 else 0)
    ensures Find(Deleted(db, engine, key), key.kind, Str(key.id)).None?
  {
    assert Cascade(db, key) == {key} || engine == FileEngine;
    CountRemoved(db, {key}, kind);
    if key.kind == kind {
      assert OfKind({key} * db.objects.Keys, kind) == {key};
    } else {
      assert OfKind({key} * db.objects.Keys, kind) == {};
    }
  }

  /**
   * With the relational engine, a State whose only City has no Places takes
   * exactly that City with it.
   */
  lemma LoneCityCascade(db: Db, stateId: string, cityId: string)
    requires Valid(db)
    requires CitiesOf(db, stateId) == [cityId]
    requires Places(db, cityId) == []
    ensures Cascade(db, Key(State, stateId)) == {Key(State, stateId), Key(City, cityId)}
  {
    var c := Key(City, cityId);
    WhereExactly(db, City, "state_id", stateId);
    WhereExactly(db, Place, "city_id", cityId);
    assert CityKeys(db, stateId) == {c} by {
      forall k | k in CityKeys(db, stateId) ensures k == c {
        assert k.id in CitiesOf(db, stateId);
      }
    }
    assert PlaceKeys(db, {cityId}) == {} by {
      forall k | k in db.objects && k.kind == Place
        ensures AttrOf(Place, db.objects[k], "city_id") != Str(cityId)
      {
        assert k.id !in Places(db, cityId);
      }
    }
  }

  /**
   * With the relational engine, deleting a State that has exactly one City,
   * itself without Places, removes one state row and one city row and no
   * place row.
   */
  lemma DbDeleteStateWithOneCity(db: Db, stateId: string, cityId: string)
    requires Valid(db) && Key(State, stateId) in db.objects
    requires CitiesOf(db, stateId) == [cityId]
    requires Places(db, cityId) == []
    ensures Count(Deleted(db, DbEngine, Key(State, stateId)), State) == Count(db, State) - 1
    ensures Count(Deleted(db, DbEngine, Key(State, stateId)), City) == Count(db, City) - 1
    ensures Count(Deleted(db, DbEngine, Key(State, stateId)), Place) == Count(db, Place)
    ensures Find(Deleted(db, DbEngine, Key(State, stateId)), City, Str(cityId)).None?
  {
    var s := Key(State, stateId);
    var c := Key(City, cityId);
    LoneCityCascade(db, stateId, cityId);
    var gone := {s, c};
    assert c in db.objects by {
      WhereExactly(db, City, "state_id", stateId);
    }
    CountRemoved(db, gone, State);
    CountRemoved(db, gone, City);
    CountRemoved(db, gone, Place);
    assert OfKind(gone * db.objects.Keys, State) == {s};
    assert OfKind(gone * db.objects.Keys, City) == {c};
    assert OfKind(gone * db.objects.Keys, Place) == {};
  }
}

=== FILE: index.dfy ===
/**
 * api/v1/views/index.py: the `/status` and `/stats` routes.
 */
module IndexView {
  import opened Objects
  import opened Engine
  import opened Views

  /** The `/stats` key under which each class's count is reported. */
  function StatsKey(kind: Kind): string {
    match kind
    case Amenity => "amenities"
    case City => "cities"
    case Place => "places"
    case Review => "reviews"
    case State => "states"
    case User => "users"
  }

  /** `GET /status`: always `{"status": "OK"}`. */
  function GetStatus(): (o: Outcome)
    ensures o.Success? && o.code == 200 && o.payload == StatusOk
  {
    Success(200, StatusOk)
  }

  /**
   * `GET /stats`: `storage.count(cls)` for each of the six classes, under
   * exactly the keys amenities, cities, places, reviews, states and users.
   */
  function GetStats(s: Storage): (o: Outcome)
    reads s
    ensures o.Success? && o.code == 200 && o.payload.Counts?
    ensures o.payload.counts.Keys == {"amenities", "cities", "places", "reviews", "states", "users"}
    ensures forall kind :: o.payload.counts[StatsKey(kind)] == Count(s.View(), kind)
  {
    var db := s.View();
    Success(200, Counts(map[
      "amenities" := Count(db, Amenity),
      "cities" := Count(db, City),
      "places" := Count(db, Place),
      "reviews" := Count(db, Review),
      "states" := Count(db, State),
      "users" := Count(db, User)]))
  }
}

=== FILE: json.dfy ===
/**
 * Request bodies as the views see them after `request.get_json(silent=True)`,
 * and the few Python operations the views apply to them: truthiness,
 * `dict.get`, `len`/iteration and the `in` operator.
 */
module Json {
  import opened Results

  /** A parsed JSON value (nested objects and floats are not modelled). */
  datatype Value =
    | Null
    | Bool(b: bool)
    | Num(n: int)
    | Str(s: string)
    | List(items: seq<Value>)

  type Fields = map<string, Value>

  /**
   * `request.get_json(silent=True)`: None when the body is missing, is not
   * JSON or is the literal null; otherwise the decoded JSON object.
   */
  datatype Body = NoJson | Json(fields: Fields)

  /** Python truthiness of a JSON value. */
  predicate Truthy(v: Value)
    ensures !Truthy(v) <==> v == Null || v == Bool(false) || v == Num(0) || v == Str("") || v == List([])
  {
    match v
    case Null => false
    case Bool(b) => b
    case Num(n) => n != 0
    case Str(s) => s != ""
    case List(xs) => xs != []
  }

  /** `data.get(key)`: None when the key is absent. */
  function Lookup(f: Fields, key: string): Value {
    if key in f then f[key] else Null
  }

  /** `if data:` -- a missing body and an empty object `{}` are both false. */
  predicate Present(body: Body)
    ensures Present(body) <==> Data(body) != map[]
  {
    body.Json? && body.fields != map[]
  }

  /** The body's fields, or no fields when there is no JSON object. */
  function Data(body: Body): Fields {
    if body.Json? then body.fields else map[]
  }

  /** `data and data.get(key)` is truthy: the body is a non-empty object holding a truthy `key`. */
  predicate Has(body: Body, key: string)
    ensures Has(body, key) <==> Truthy(Lookup(Data(body), key))
    ensures Has(body, key) ==> Present(body) && key in body.fields
  {
    body.Json? && Truthy(Lookup(body.fields, key))
  }

  /**
   * `len(v)` followed by `for x in v`: a list yields its items, a string its
   * one-character strings, anything else raises TypeError.
   */
  function Iterate(v: Value): (r: Result<seq<Value>>)
    ensures v.List? ==> r == Ok(v.items)
    ensures v.Str? ==> r.Ok? && |r.value| == |v.s| && forall i :: 0 <= i < |v.s| ==> r.value[i] == Str([v.s[i]])
    ensures !v.List? && !v.Str? ==> r == Raised("TypeError")
  {
    match v
    case List(xs) => Ok(xs)
    case Str(s) => Ok(seq(|s|, i requires 0 <= i < |s| => Str([s[i]])))
    case _ => Raised("TypeError")
  }

  /** `t` occurs in `s` starting at index `i`. */
  predicate OccursAt(t: string, s: string, i: int) {
    0 <= i <= |s| - |t| && s[i..i + |t|] == t
  }

  /** `t` occurs in `s` as a contiguous run (Python's `t in s` on strings). */
  predicate IsSubstring(t: string, s: string)
    decreases |s|
  {
    t <= s || (|s| > 0 && IsSubstring(t, s[1..]))
  }

  lemma {:induction false} IsSubstringAt(t: string, s: string)
    ensures IsSubstring(t, s) <==> exists i :: OccursAt(t, s, i)
    decreases |s|
  {
    if t <= s {
      assert OccursAt(t, s, 0);
    } else if |s| > 0 {
      IsSubstringAt(t, s[1..]);
      if IsSubstring(t, s[1..]) {
        var i :| OccursAt(t, s[1..], i);
        assert s[1..][i..i + |t|] == s[i + 1..i + 1 + |t|];
        assert OccursAt(t, s, i + 1);
      }
      if !IsSubstring(t, s[1..]) {
        forall i | 0 < i <= |s| - |t|
          ensures !OccursAt(t, s, i)
        {
          assert !OccursAt(t, s[1..], i - 1);
          assert s[1..][i - 1..i - 1 + |t|] == s[i..i + |t|];
        }
      }
    }
  }

  /**
   * Python's `x in coll`: membership for a list (by equality), substring
   * search for a string (TypeError unless `x` is a string), and TypeError
   * for every other container.
   */
  function Contains(coll: Value, x: Value): (r: Result<bool>)
    ensures coll.List? ==> r == Ok(x in coll.items)
    ensures coll.Str? && x.Str? ==> r.Ok? && (r.value <==> exists i :: OccursAt(x.s, coll.s, i))
    ensures r.Raised? <==> !(coll.List? || (coll.Str? && x.Str?))
    ensures r.Raised? ==> r.exception == "TypeError"
  {
    match coll
    case List(xs) => Ok(x in xs)
    case Str(s) =>
      if x.Str? then IsSubstringAt(x.s, s); Ok(IsSubstring(x.s, s)) else Raised("TypeError")
    case _ => Raised("TypeError")
  }
}

=== FILE: objects.dfy ===
/**
 * The object store the views talk to through `models.storage`: every stored
 * object under its composite key (class name and id), in the order the
 * objects were added, with the queries the views use (`get`, `all`, `count`)
 * and the foreign-key scans behind the relationship properties.
 */
module Objects {
  import opened Json
  import opened Results

  /** The six model classes. */
  datatype Kind = Amenity | City | Place | Review | State | User

  /** The composite key `"<ClassName>.<id>"`. */
  datatype Key = Key(kind: Kind, id: string)

  /** The attributes of one object, as `setattr` and `Cls(**data)` leave them. */
  type Attrs = map<string, Value>

  /**
   * The store: the objects by key, and the keys in insertion order (the
   * order in which `storage.all(cls).values()` yields them).
   */
  datatype Db = Db(objects: map<Key, Attrs>, order: seq<Key>)

  predicate NoDup<T(==)>(s: seq<T>) {
    forall i, j :: 0 <= i < j < |s| ==> s[i] != s[j]
  }

  /** The order lists every stored key exactly once, and nothing else. */
  ghost predicate Valid(db: Db) {
    && (forall k :: k in db.objects <==> k in db.order)
    && NoDup(db.order)
  }

  /**
   * The class attributes an instance falls back on when it has no attribute
   * of its own: `City.name` and `City.state_id` are "" in file mode, and a
   * Place's `amenity_ids` is an empty list.
   */
  function ClassDefault(kind: Kind, name: string): Value {
    if kind == City && (name == "name" || name == "state_id") then Str("")
    else if kind == Place && name == "amenity_ids" then List([])
    else Null
  }

  /** `getattr(obj, name)` for an object of class `kind`. */
  function AttrOf(kind: Kind, attrs: Attrs, name: string): Value {
    if name in attrs then attrs[name] else ClassDefault(kind, name)
  }

  /** The attributes stored under `key`, or none when nothing is stored there. */
  function AttrsAt(db: Db, key: Key): Attrs {
    if key in db.objects then db.objects[key] else map[]
  }

  /** `place.amenity_ids` of the Place `placeId` (the class's empty list when it never had one of its own). */
  function AmenityIds(db: Db, placeId: string): Value {
    AttrOf(Place, AttrsAt(db, Key(Place, placeId)), "amenity_ids")
  }

  /** The ids of the keys of class `kind` in `order`, in that order. */
  function Ids(order: seq<Key>, kind: Kind): seq<string> {
    if order == [] then []
    else
      var last := order[|order| - 1];
      Ids(order[..|order| - 1], kind) + (if last.kind == kind then [last.id] else [])
  }

  /** `storage.all(cls)`: the ids of the stored objects of class `kind`. */
  function All(db: Db, kind: Kind): (r: seq<string>)
    ensures forall id :: id in r <==> Key(kind, id) in db.order
  {
    assert forall id :: id in Ids(db.order, kind) <==> Key(kind, id) in db.order by {
      forall id ensures id in Ids(db.order, kind) <==> Key(kind, id) in db.order {
        IdsMembership(db.order, kind, id);
      }
    }
    Ids(db.order, kind)
  }

  /** `storage.count(cls)`. */
  function Count(db: Db, kind: Kind): (r: nat)
    ensures r == 0 <==> forall k | k in db.order :: k.kind != kind
  {
    assert (forall k | k in db.order :: k.kind != kind) ==> All(db, kind) == [] by {
      if All(db, kind) != [] {
        assert Key(kind, All(db, kind)[0]) in db.order;
      }
    }
    |All(db, kind)|
  }

  /**
   * `storage.get(cls, id)` for any value the views pass as an id: only a
   * string can name a stored object.
   */
  function Find(db: Db, kind: Kind, id: Value): (r: Option<Attrs>)
    ensures r.Some? <==> id.Str? && Key(kind, id.s) in db.objects
    ensures r.Some? ==> r.value == db.objects[Key(kind, id.s)]
  {
    if id.Str? && Key(kind, id.s) in db.objects then Some(db.objects[Key(kind, id.s)]) else None
  }

  /** The keys of `order` of class `kind` whose attribute `fk` is the string `target`. */
  function Select(order: seq<Key>, objects: map<Key, Attrs>, kind: Kind, fk: string, target: string): seq<string> {
    if order == [] then []
    else
      var last := order[|order| - 1];
      var hit := last.kind == kind && last in objects && AttrOf(kind, objects[last], fk) == Str(target);
      Select(order[..|order| - 1], objects, kind, fk, target) + (if hit then [last.id] else [])
  }

  /**
   * A foreign-key scan: the stored objects of class `kind` whose attribute
   * `fk` equals `target`, in storage order.
   */
  function Where(db: Db, kind: Kind, fk: string, target: string): (r: seq<string>)
    ensures forall id :: id in r <==>
      Key(kind, id) in db.order && Key(kind, id) in db.objects && AttrOf(kind, db.objects[Key(kind, id)], fk) == Str(target)
  {
    assert forall id :: id in Select(db.order, db.objects, kind, fk, target) <==>
      Key(kind, id) in db.order && Key(kind, id) in db.objects && AttrOf(kind, db.objects[Key(kind, id)], fk) == Str(target)
    by {
      forall id ensures id in Select(db.order, db.objects, kind, fk, target) <==>
        Key(kind, id) in db.order && Key(kind, id) in db.objects && AttrOf(kind, db.objects[Key(kind, id)], fk) == Str(target)
      {
        SelectExactly(db.order, db.objects, kind, fk, target, id);
      }
    }
    Select(db.order, db.objects, kind, fk, target)
  }

  /** `a` is `b` with some elements left out, the rest in the same order. */
  predicate Subseq<T(==)>(a: seq<T>, b: seq<T>)
    decreases |b|
  {
    if a == [] then true
    else if b == [] then false
    else if a[|a| - 1] == b[|b| - 1] then Subseq(a[..|a| - 1], b[..|b| - 1])
    else Subseq(a, b[..|b| - 1])
  }

  lemma SubseqSnoc<T>(a: seq<T>, b: seq<T>, x: T)
    requires Subseq(a, b)
    ensures Subseq(a + [x], b + [x])
  {
    assert (b + [x])[..|b|] == b;
    assert (a + [x])[..|a|] == a;
  }

  lemma {:induction false} SubseqAppend<T>(a: seq<T>, b: seq<T>, x: T)
    requires Subseq(a, b)
    ensures Subseq(a, b + [x])
    decreases |b|, 1
  {
    assert (b + [x])[..|b|] == b;
    if a != [] && a[|a| - 1] == x {
      SubseqDropLast(a, b);
    }
  }

  lemma {:induction false} SubseqDropLast<T>(a: seq<T>, b: seq<T>)
    requires a != [] && Subseq(a, b)
    ensures Subseq(a[..|a| - 1], b)
    decreases |b|, 0
  {
    var b' := b[..|b| - 1];
    assert b == b' + [b[|b| - 1]];
    if a[|a| - 1] == b[|b| - 1] {
      SubseqAppend(a[..|a| - 1], b', b[|b| - 1]);
    } else {
      SubseqDropLast(a, b');
      SubseqAppend(a[..|a| - 1], b', b[|b| - 1]);
    }
  }

  lemma {:induction false} IdsMembership(order: seq<Key>, kind: Kind, id: string)
    ensures id in Ids(order, kind) <==> Key(kind, id) in order
  {
    if order != [] {
      IdsMembership(order[..|order| - 1], kind, id);
      assert order == order[..|order| - 1] + [order[|order| - 1]];
    }
  }

  lemma {:induction false} IdsNoDup(order: seq<Key>, kind: Kind)
    requires NoDup(order)
    ensures NoDup(Ids(order, kind))
  {
    if order != [] {
      var init := order[..|order| - 1];
      var last := order[|order| - 1];
      IdsNoDup(init, kind);
      if last.kind == kind {
        IdsMembership(init, kind, last.id);
        assert Key(kind, last.id) == last;
        assert last !in init by {
          assert order == init + [last];
        }
      }
    }
  }

  /** `storage.all(cls)` lists exactly the stored objects of that class, each once. */
  lemma AllExactly(db: Db, kind: Kind)
    requires Valid(db)
    ensures forall id :: id in All(db, kind) <==> Key(kind, id) in db.objects
    ensures NoDup(All(db, kind))
  {
    forall id ensures id in All(db, kind) <==> Key(kind, id) in db.objects {
      IdsMembership(db.order, kind, id);
    }
    IdsNoDup(db.order, kind);
  }

  lemma {:induction false} SelectExactly(order: seq<Key>, objects: map<Key, Attrs>, kind: Kind, fk: string, target: string, id: string)
    ensures id in Select(order, objects, kind, fk, target) <==>
      Key(kind, id) in order && Key(kind, id) in objects && AttrOf(kind, objects[Key(kind, id)], fk) == Str(target)
  {
    if order != [] {
      SelectExactly(order[..|order| - 1], objects, kind, fk, target, id);
      assert order == order[..|order| - 1] + [order[|order| - 1]];
    }
  }

  lemma {:induction false} SelectSubseq(order: seq<Key>, objects: map<Key, Attrs>, kind: Kind, fk: string, target: string)
    ensures Subseq(Select(order, objects, kind, fk, target), Ids(order, kind))
  {
    if order != [] {
      var init := order[..|order| - 1];
      var last := order[|order| - 1];
      SelectSubseq(init, objects, kind, fk, target);
      var sel := Select(init, objects, kind, fk, target);
      var ids := Ids(init, kind);
      if last.kind == kind {
        assert Ids(order, kind) == ids + [last.id];
        if last in objects && AttrOf(kind, objects[last], fk) == Str(target) {
          assert Select(order, objects, kind, fk, target) == sel + [last.id];
          SubseqSnoc(sel, ids, last.id);
        } else {
          assert Select(order, objects, kind, fk, target) == sel;
          SubseqAppend(sel, ids, last.id);
        }
      } else {
        assert Ids(order, kind) == ids;
        assert Select(order, objects, kind, fk, target) == sel;
      }
    }
  }

  /**
   * A foreign-key scan lists exactly the stored objects of the class whose
   * attribute holds the target, in storage order.
   */
  lemma WhereExactly(db: Db, kind: Kind, fk: string, target: string)
    requires Valid(db)
    ensures forall id :: id in Where(db, kind, fk, target) <==>
      Key(kind, id) in db.objects && AttrOf(kind, db.objects[Key(kind, id)], fk) == Str(target)
    ensures Subseq(Where(db, kind, fk, target), All(db, kind))
  {
    forall id ensures id in Where(db, kind, fk, target) <==>
      Key(kind, id) in db.objects && AttrOf(kind, db.objects[Key(kind, id)], fk) == Str(target)
    {
      SelectExactly(db.order, db.objects, kind, fk, target, id);
    }
    SelectSubseq(db.order, db.objects, kind, fk, target);
  }

  lemma {:induction false} SelectEmpty(order: seq<Key>, objects: map<Key, Attrs>, kind: Kind, fk: string, target: string)
    requires forall k :: k in order && k.kind == kind && k in objects ==> AttrOf(kind, objects[k], fk) != Str(target)
    ensures Select(order, objects, kind, fk, target) == []
  {
    if order != [] {
      assert order[|order| - 1] in order;
      SelectEmpty(order[..|order| - 1], objects, kind, fk, target);
    }
  }

  /** A scan for a target no stored object of the class holds finds nothing. */
  lemma WhereEmpty(db: Db, kind: Kind, fk: string, target: string)
    requires forall k :: k in db.objects && k.kind == kind ==> AttrOf(kind, db.objects[k], fk) != Str(target)
    requires Valid(db)
    ensures Where(db, kind, fk, target) == []
  {
    SelectEmpty(db.order, db.objects, kind, fk, target);
  }

  /** The store after `storage.new(obj)` of a fresh object. */
  function Inserted(db: Db, key: Key, attrs: Attrs): Db {
    Db(db.objects[key := attrs], db.order + [key])
  }

  /** The store after the attributes of a stored object changed in place. */
  function Updated(db: Db, key: Key, attrs: Attrs): Db {
    Db(db.objects[key := attrs], db.order)
  }

  /** `order` with every key of `gone` taken out. */
  function Without(order: seq<Key>, gone: set<Key>): seq<Key> {
    if order == [] then []
    else
      var last := order[|order| - 1];
      Without(order[..|order| - 1], gone) + (if last in gone then [] else [last])
  }

  /** The store after the objects under `gone` were deleted. */
  function Removed(db: Db, gone: set<Key>): Db {
    Db(db.objects - gone, Without(db.order, gone))
  }

  lemma InsertedValid(db: Db, key: Key, attrs: Attrs)
    requires Valid(db) && key !in db.objects
    ensures Valid(Inserted(db, key, attrs))
  {
  }

  lemma UpdatedValid(db: Db, key: Key, attrs: Attrs)
    requires Valid(db) && key in db.objects
    ensures Valid(Updated(db, key, attrs))
  {
  }

  /** Saving a new object raises the count of its class by exactly one and leaves the others alone. */
  lemma CountInserted(db: Db, key: Key, attrs: Attrs, kind: Kind)
    ensures Count(Inserted(db, key, attrs), kind) == Count(db, kind) + (if key.kind == kind then 1 else 0)
  {
    assert (db.order + [key])[..|db.order|] == db.order;
  }

  lemma {:induction false} WithoutExactly(order: seq<Key>, gone: set<Key>)
    ensures forall k :: k in Without(order, gone) <==> k in order && k !in gone
    ensures NoDup(order) ==> NoDup(Without(order, gone))
  {
    if order != [] {
      var init := order[..|order| - 1];
      var last := order[|order| - 1];
      WithoutExactly(init, gone);
      assert order == init + [last];
    }
  }

  lemma RemovedValid(db: Db, gone: set<Key>)
    requires Valid(db)
    ensures Valid(Removed(db, gone))
  {
    WithoutExactly(db.order, gone);
  }

  /** The keys of `keys` of class `kind`. */
  function OfKind(keys: set<Key>, kind: Kind): set<Key> {
    set k | k in keys && k.kind == kind
  }

  /** The elements of a sequence, as a set. */
  function Elems<T>(s: seq<T>): set<T> {
    set x | x in s
  }

  lemma OfKindStep(gone: set<Key>, before: set<Key>, last: Key, kind: Kind)
    requires last !in before
    ensures |OfKind(gone * (before + {last}), kind)| ==
      |OfKind(gone * before, kind)| + (if last in gone && last.kind == kind then 1 else 0)
  {
    if last in gone && last.kind == kind {
      assert OfKind(gone * (before + {last}), kind) == OfKind(gone * before, kind) + {last};
    } else {
      assert OfKind(gone * (before + {last}), kind) == OfKind(gone * before, kind);
    }
  }

  lemma IdsSnoc(order: seq<Key>, last: Key, kind: Kind)
    ensures Ids(order + [last], kind) == Ids(order, kind) + (if last.kind == kind then [last.id] else [])
  {
    assert (order + [last])[..|order|] == order;
  }

  lemma WithoutSnoc(order: seq<Key>, last: Key, gone: set<Key>)
    ensures Without(order + [last], gone) == Without(order, gone) + (if last in gone then [] else [last])
  {
    assert (order + [last])[..|order|] == order;
  }

  lemma {:induction false} IdsWithout(order: seq<Key>, gone: set<Key>, kind: Kind)
    requires NoDup(order)
    ensures |Ids(order, kind)| == |Ids(Without(order, gone), kind)| + |OfKind(gone * Elems(order), kind)|
  {
    if order == [] {
      assert OfKind(gone * Elems(order), kind) == {};
    } else {
      var init := order[..|order| - 1];
      var last := order[|order| - 1];
      assert order == init + [last];
      assert Elems(order) == Elems(init) + {last};
      assert last !in Elems(init);
      IdsWithout(init, gone, kind);
      OfKindStep(gone, Elems(init), last, kind);
      IdsSnoc(init, last, kind);
      WithoutSnoc(init, last, gone);
      var extra := if last.kind == kind then 1 else 0;
      assert |Ids(order, kind)| == |Ids(init, kind)| + extra;
      if last !in gone {
        IdsSnoc(Without(init, gone), last, kind);
        assert Without(order, gone) == Without(init, gone) + [last];
        assert |Ids(Without(order, gone), kind)| == |Ids(Without(init, gone), kind)| + extra;
      } else {
        assert Without(order, gone) == Without(init, gone);
      }
    }
  }

  /**
   * Deleting the objects under `gone` lowers the count of each class by the
   * number of stored objects of that class among them.
   */
  lemma CountRemoved(db: Db, gone: set<Key>, kind: Kind)
    requires Valid(db)
    ensures Count(db, kind) == Count(Removed(db, gone), kind) + |OfKind(gone * db.objects.Keys, kind)|
  {
    IdsWithout(db.order, gone, kind);
    assert Elems(db.order) == db.objects.Keys;
  }
}

=== FILE: places.dfy ===
/**
 * api/v1/views/places.py, all but `search_place`: the
 * `/cities/<city_id>/places` and `/places/<place_id>` routes.
 */
module PlacesView {
  import opened Results
  import opened Json
  import opened Objects
  import opened CityModel
  import opened Engine
  import opened Views

  /** The body keys `update_place` never copies onto the Place. */
  const PlaceIgnored: set<string> := {"id", "city_id", "user_id", "created_at", "updated_at"}

  /**
   * `GET /cities/<city_id>/places`: 404 for an unknown City, otherwise
   * `city.places`, the stored Places that reference it.
   */
  function GetPlaces(s: Storage, cityId: string): (o: Outcome)
    reads s
    requires s.Valid()
    ensures o.Success? <==> Key(City, cityId) in s.objects
    ensures !o.Success? ==> o == NotFound
    ensures o.Success? ==> o.code == 200 && o.payload.Items?
    ensures o.Success? ==> forall p :: p in o.payload.ids <==> PlaceIn(s.View(), p, cityId)
    ensures o.Success? ==> Subseq(o.payload.ids, All(s.View(), Place))
  {
    if Find(s.View(), City, Str(cityId)).Some? then
      PlacesExactly(s.View(), cityId);
      Success(200, Items(Places(s.View(), cityId)))
    else
      NotFound
  }

  /** `GET /places/<place_id>`: the Place, or 404 for an unknown id. */
  function GetPlace(s: Storage, id: string): (o: Outcome)
    reads s
    ensures o.Success? <==> Key(Place, id) in s.objects
    ensures o.Success? ==> o == Success(200, Item(id, s.objects[Key(Place, id)]))
    ensures !o.Success? ==> o == NotFound
  {
    match Find(s.View(), Place, Str(id))
    case Some(attrs) => Success(200, Item(id, attrs))
    case None => NotFound
  }

  /**
   * `DELETE /places/<place_id>`: an existing Place is deleted, exactly that
   * one object, and `{}` is returned; an unknown id gives 404 and changes
   * nothing.
   */
  method DeletePlace(s: Storage, id: string) returns (o: Outcome)
    requires s.Valid()
    modifies s
    ensures s.Valid()
    ensures Key(Place, id) in old(s.objects) ==>
      && o == Success(200, Empty)
      && s.View() == Deleted(old(s.View()), s.engine, Key(Place, id))
      && s.objects == old(s.objects) - {Key(Place, id)}
      && Count(s.View(), Place) == Count(old(s.View()), Place) - 1
    ensures Key(Place, id) !in old(s.objects) ==> o == NotFound && s.View() == old(s.View())
    ensures GetPlace(s, id) == NotFound
  {
    if Find(s.View(), Place, Str(id)).Some? {
      DeleteOneCounts(s.View(), s.engine, Key(Place, id), Place);
      s.Delete(Key(Place, id));
      o := Success(200, Empty);
    } else {
      o := NotFound;
    }
  }

  /**
   * `POST /cities/<city_id>/places`: a Place is stored, under the fresh id
   * `newId` and with `city_id` forced to the path id whatever the body says,
   * only when the City, the User named by `user_id` and a truthy `name` all
   * exist. Otherwise the errors come in the order "Missing name", "Missing
   * user_id", "Not a JSON" (a missing body or `{}`), 404.
   */
  method CreatePlace(s: Storage, cityId: string, body: Body, newId: string) returns (o: Outcome)
    requires s.Valid() && Key(Place, newId) !in s.objects
    modifies s
    ensures s.Valid()
    ensures o.Success? <==>
      && Key(City, cityId) in old(s.objects)
      && Find(old(s.View()), User, Lookup(Data(body), "user_id")).Some?
      && Has(body, "name")
    ensures o.Success? ==>
      && o == Success(201, Item(newId, body.fields["city_id" := Str(cityId)]))
      && s.View() == Inserted(old(s.View()), Key(Place, newId), body.fields["city_id" := Str(cityId)])
      && newId in Places(s.View(), cityId)
      && Count(s.View(), Place) == Count(old(s.View()), Place) + 1
    ensures !o.Success? ==> s.View() == old(s.View())
    ensures !o.Success? && Present(body) && !Has(body, "name") ==> o == BadRequest("Missing name")
    ensures !o.Success? && Has(body, "name") && !Has(body, "user_id") ==> o == BadRequest("Missing user_id")
    ensures !Present(body) ==> o == BadRequest(NotAJson)
    ensures !o.Success? && Has(body, "name") && Has(body, "user_id") ==> o == NotFound
  {
    var city := Find(s.View(), City, Str(cityId));
    var user := if Present(body) then Find(s.View(), User, Lookup(body.fields, "user_id")) else None;
    if city.Some? && user.Some? && Present(body) && Has(body, "name") {
      var attrs := body.fields["city_id" := Str(cityId)];
      CountInserted(s.View(), Key(Place, newId), attrs, Place);
      s.New(Key(Place, newId), attrs);
      PlacesExactly(s.View(), cityId);
      o := Success(201, Item(newId, attrs));
    } else if Present(body) && !Has(body, "name") {
      o := BadRequest("Missing name");
    } else if Present(body) && !Has(body, "user_id") {
      o := BadRequest("Missing user_id");
    } else if !Present(body) {
      o := BadRequest(NotAJson);
    } else {
      o := NotFound;
    }
  }

  /**
   * `PUT /places/<place_id>`, the body's keys iterated in the order `keys`: "Not a JSON" comes first, then 404 for an unknown id;
   * otherwise every body key outside `PlaceIgnored` is set on the Place, each
   * followed at once by `save()`. It answers 200 with the merged Place
   * exactly when the update is `Accepted`; otherwise 500, and the store
   * keeps the keys saved before the one that raised.
   */
  method UpdatePlace(s: Storage, id: string, body: Body, keys: seq<string>) returns (o: Outcome)
    requires s.Valid()
    requires body.Json? ==> forall k :: k in keys <==> k in body.fields
    modifies s
    ensures s.Valid()
    ensures !Present(body) ==> o == BadRequest(NotAJson) && s.View() == old(s.View())
    ensures Key(Place, id) !in old(s.objects) && Present(body) ==> o == NotFound && s.View() == old(s.View())
    ensures Key(Place, id) in old(s.objects) && Present(body) ==>
      var p := Update(Place, s.engine, old(s.objects[Key(Place, id)]), keys, Plain(body.fields), PlaceIgnored, true);
      o == Respond(id, p) && s.View() == Updated(old(s.View()), Key(Place, id), p.saved)
    ensures Key(Place, id) in old(s.objects) && Present(body) ==>
      (o.Success? <==> Accepted(Place, s.engine, old(s.objects[Key(Place, id)]), Plain(body.fields), PlaceIgnored, true))
    ensures Key(Place, id) in old(s.objects) && Present(body) && o.Success? ==>
      && o == Success(200, Item(id, s.objects[Key(Place, id)]))
      && s.View() == Updated(old(s.View()), Key(Place, id), Merge(old(s.objects[Key(Place, id)]), body.fields, PlaceIgnored))
      && Keeps(old(s.objects[Key(Place, id)]), s.objects[Key(Place, id)], PlaceIgnored)
      && SetsAll(s.objects[Key(Place, id)], body.fields, PlaceIgnored)
    ensures Key(Place, id) in old(s.objects) && Present(body) && !o.Success? ==> o.ServerError?
  {
    var key := Key(Place, id);
    if !Present(body) {
      o := BadRequest(NotAJson);
    } else if Find(s.View(), Place, Str(id)).None? {
      o := NotFound;
    } else {
      assert OkValues(Plain(body.fields)) == body.fields;
      o := UpdateObject(s, key, id, keys, Plain(body.fields), PlaceIgnored, true);
    }
  }
}

=== FILE: places_amenities.dfy ===
/**
 * api/v1/views/places_amenities.py: the `/places/<place_id>/amenities` and
 * `/places/<place_id>/amenities/<amenity_id>` routes, with the links of a
 * Place kept, as in file mode, in its `amenity_ids` list. Linking appends the
 * amenity's id to that list (the effect assumed for the `amenities` setter,
 * which models/place.py defines).
 */
module PlaceAmenitiesView {
  import opened Results
  import opened Json
  import opened Objects
  import opened Engine
  import opened Views

  /** A handler's response together with the store it leaves behind. */
  datatype Step = Step(outcome: Outcome, after: Db)

  /** `xs.remove(x)`: the list without the first occurrence of `x`. */
  function RemoveFirst<T(==)>(xs: seq<T>, x: T): (r: seq<T>)
    requires x in xs
    ensures |r| == |xs| - 1
    ensures multiset(r) == multiset(xs) - multiset{x}
  {
    assert xs == [xs[0]] + xs[1..];
    if xs[0] == x then xs[1..] else [xs[0]] + RemoveFirst(xs[1..], x)
  }

  /** Splitting a sequence after its head. */
  lemma HeadSplit<T>(xs: seq<T>, j: nat)
    requires j + 1 < |xs|
    ensures xs[..j + 1] == [xs[0]] + xs[1..][..j]
    ensures xs[j + 2..] == xs[1..][j + 1..]
  {
  }

  /** The position of the first occurrence of `x` in `xs`. */
  function FirstIndex<T(==)>(xs: seq<T>, x: T): (i: nat)
    requires x in xs
    ensures i < |xs| && xs[i] == x && x !in xs[..i]
  {
    if xs[0] == x then 0
    else
      var j := FirstIndex(xs[1..], x);
      HeadSplit(xs, j);
      j + 1
  }

  /** `remove` drops the first occurrence of `x` and keeps the rest in order. */
  lemma {:induction false} RemoveFirstAt<T>(xs: seq<T>, x: T)
    requires x in xs
    ensures RemoveFirst(xs, x) == xs[..FirstIndex(xs, x)] + xs[FirstIndex(xs, x) + 1..]
  {
    var i := FirstIndex(xs, x);
    if xs[0] == x {
      assert i == 0;
      assert xs[..0] + xs[1..] == xs[1..];
    } else {
      var rest := xs[1..];
      var j := FirstIndex(rest, x);
      RemoveFirstAt(rest, x);
      assert i == j + 1;
      HeadSplit(xs, j);
      calc {
        RemoveFirst(xs, x);
        [xs[0]] + RemoveFirst(rest, x);
        [xs[0]] + (rest[..j] + rest[j + 1..]);
        ([xs[0]] + rest[..j]) + rest[j + 1..];
        xs[..i] + xs[i + 1..];
      }
    }
  }

  /** Removing what was just appended, and was not there before, restores the list. */
  lemma {:induction false} RemoveAppended<T>(xs: seq<T>, x: T)
    requires x !in xs
    ensures RemoveFirst(xs + [x], x) == xs
  {
    if xs != [] {
      assert (xs + [x])[1..] == xs[1..] + [x];
      RemoveAppended(xs[1..], x);
    }
  }

  /**
   * `place.amenities` in file mode: the stored Amenities whose id is `in` the
   * place's `amenity_ids`, in storage order, or the exception that `in`
   * raises on a value that is neither a list nor a string.
   */
  function LinkedAmenities(links: Value, ids: seq<string>): (r: Result<seq<string>>)
    ensures r.Raised? <==> ids != [] && !links.List? && !links.Str?
    ensures links.List? ==> r.Ok? && forall a :: a in r.value <==> a in ids && Str(a) in links.items
    ensures r.Ok? ==> forall a :: a in r.value <==> a in ids && Contains(links, Str(a)) == Ok(true)
    ensures r.Raised? ==> r.exception == "TypeError"
  {
    if ids == [] then Ok([])
    else
      var before :- LinkedAmenities(links, ids[..|ids| - 1]);
      var last := ids[|ids| - 1];
      var linked :- Contains(links, Str(last));
      assert ids == ids[..|ids| - 1] + [last];
      Ok(before + if linked then [last] else [])
  }

  /**
   * `GET /places/<place_id>/amenities`: 404 for an unknown Place, otherwise
   * the Amenities linked to it.
   */
  function GetAmenitiesForPlace(s: Storage, placeId: string): (o: Outcome)
    reads s
    requires s.Valid()
    ensures Key(Place, placeId) !in s.objects ==> o == NotFound
    ensures Key(Place, placeId) in s.objects && AmenityIds(s.View(), placeId).List? ==>
      && o.Success? && o.code == 200 && o.payload.Items?
      && forall a :: a in o.payload.ids <==> Key(Amenity, a) in s.objects && Str(a) in AmenityIds(s.View(), placeId).items
    ensures Key(Place, placeId) in s.objects ==>
      (o.ServerError? <==> All(s.View(), Amenity) != [] && !AmenityIds(s.View(), placeId).List? && !AmenityIds(s.View(), placeId).Str?)
    ensures Key(Place, placeId) in s.objects && o.ServerError? ==> o == ServerError("TypeError")
    ensures Key(Place, placeId) in s.objects && !o.ServerError? ==>
      && o.Success? && o.code == 200 && o.payload.Items?
      && forall a :: a in o.payload.ids <==>
           Key(Amenity, a) in s.objects && Contains(AmenityIds(s.View(), placeId), Str(a)) == Ok(true)
  {
    if Find(s.View(), Place, Str(placeId)).None? then NotFound
    else
      AllExactly(s.View(), Amenity);
      match LinkedAmenities(AmenityIds(s.View(), placeId), All(s.View(), Amenity))
      case Ok(ids) => Success(200, Items(ids))
      case Raised(e) => ServerError(e)
  }

  /**
   * `DELETE /places/<place_id>/amenities/<amenity_id>`: 404 when the Place or
   * the Amenity is missing, or when the amenity is not linked (`remove`
   * raises ValueError); otherwise the first occurrence of its id leaves the
   * place's list and `{}` is returned. A place whose `amenity_ids` is not a
   * list has no `remove` (AttributeError).
   */
  function Unlink(db: Db, placeId: string, amenityId: string): (r: Step)
    ensures r.outcome.Success? <==>
      && Key(Place, placeId) in db.objects && Key(Amenity, amenityId) in db.objects
      && AmenityIds(db, placeId).List? && Str(amenityId) in AmenityIds(db, placeId).items
    ensures !r.outcome.Success? ==> r.after == db
    ensures (Key(Place, placeId) !in db.objects || Key(Amenity, amenityId) !in db.objects) ==> r.outcome == NotFound
    ensures Key(Place, placeId) in db.objects && Key(Amenity, amenityId) in db.objects && !AmenityIds(db, placeId).List? ==>
      r == Step(ServerError("AttributeError"), db)
    ensures Key(Place, placeId) in db.objects && Key(Amenity, amenityId) in db.objects &&
            AmenityIds(db, placeId).List? && Str(amenityId) !in AmenityIds(db, placeId).items ==>
      r == Step(NotFound, db)
    ensures r.outcome.Success? ==>
      && r.outcome == Success(200, Empty)
      && r.after.order == db.order
      && r.after.objects.Keys == db.objects.Keys
      && (forall k | k in db.objects && k != Key(Place, placeId) :: r.after.objects[k] == db.objects[k])
      && AmenityIds(r.after, placeId).List?
      && multiset(AmenityIds(r.after, placeId).items) == multiset(AmenityIds(db, placeId).items) - multiset{Str(amenityId)}
    ensures r.outcome.Success? ==>
      r.after.objects[Key(Place, placeId)] ==
        db.objects[Key(Place, placeId)]["amenity_ids" := List(RemoveFirst(AmenityIds(db, placeId).items, Str(amenityId)))]
  {
    var place := Key(Place, placeId);
    if place !in db.objects || Key(Amenity, amenityId) !in db.objects then Step(NotFound, db)
    else
      var links := AmenityIds(db, placeId);
      if !links.List? then Step(ServerError("AttributeError"), db)
      else if Str(amenityId) !in links.items then Step(NotFound, db)
      else
        var kept := List(RemoveFirst(links.items, Str(amenityId)));
        Step(Success(200, Empty), Updated(db, place, db.objects[place]["amenity_ids" := kept]))
  }

  /**
   * `POST /places/<place_id>/amenities/<amenity_id>`: 404 when the Place or
   * the Amenity is missing; an amenity already linked is returned with 200
   * and nothing changes; otherwise its id is appended to the place's list and
   * it is returned with 201. The membership test raises on an `amenity_ids`
   * that is neither a list nor a string, and only a list can be appended to.
   */
  function Link(db: Db, placeId: string, amenityId: string): (r: Step)
    ensures (Key(Place, placeId) !in db.objects || Key(Amenity, amenityId) !in db.objects) ==> r == Step(NotFound, db)
    ensures Key(Place, placeId) in db.objects && Key(Amenity, amenityId) in db.objects && AmenityIds(db, placeId).List? ==>
      && r.outcome.Success?
      && r.outcome.payload == Item(amenityId, db.objects[Key(Amenity, amenityId)])
      && (r.outcome.code == 200 <==> Str(amenityId) in AmenityIds(db, placeId).items)
      && (r.outcome.code == 200 ==> r.after == db)
      && (r.outcome.code != 200 ==>
            && r.outcome.code == 201
            && r.after == Updated(db, Key(Place, placeId),
                                  db.objects[Key(Place, placeId)]["amenity_ids" := List(AmenityIds(db, placeId).items + [Str(amenityId)])]))
    ensures !r.outcome.Success? ==> r.after == db
    ensures Key(Place, placeId) in db.objects && Key(Amenity, amenityId) in db.objects && !AmenityIds(db, placeId).List? ==>
      && r.after == db
      && (r.outcome.Success? <==> Contains(AmenityIds(db, placeId), Str(amenityId)) == Ok(true))
      && (r.outcome.Success? ==> r.outcome == Success(200, Item(amenityId, db.objects[Key(Amenity, amenityId)])))
      && (AmenityIds(db, placeId).Str? && !r.outcome.Success? ==> r.outcome == ServerError("AttributeError"))
      && (!AmenityIds(db, placeId).Str? ==> r.outcome == ServerError("TypeError"))
  {
    var place := Key(Place, placeId);
    var amenity := Key(Amenity, amenityId);
    if place !in db.objects || amenity !in db.objects then Step(NotFound, db)
    else
      var links := AmenityIds(db, placeId);
      match Contains(links, Str(amenityId))
      case Raised(e) => Step(ServerError(e), db)
      case Ok(linked) =>
        if linked then Step(Success(200, Item(amenityId, db.objects[amenity])), db)
        else if !links.List? then Step(ServerError("AttributeError"), db)
        else
          var grown := List(links.items + [Str(amenityId)]);
          Step(Success(201, Item(amenityId, db.objects[amenity])), Updated(db, place, db.objects[place]["amenity_ids" := grown]))
  }

  /** Linking twice is linking once: the second request answers 200 and changes nothing. */
  lemma LinkIdempotent(db: Db, placeId: string, amenityId: string)
    requires Key(Place, placeId) in db.objects && Key(Amenity, amenityId) in db.objects
    requires AmenityIds(db, placeId).List?
    ensures Link(Link(db, placeId, amenityId).after, placeId, amenityId) ==
      Step(Success(200, Item(amenityId, db.objects[Key(Amenity, amenityId)])), Link(db, placeId, amenityId).after)
  {
    var once := Link(db, placeId, amenityId).after;
    assert AmenityIds(once, placeId).List? && Str(amenityId) in AmenityIds(once, placeId).items;
  }

  /** Unlinking an amenity just linked, and not linked before, gives the place its old list back. */
  lemma LinkThenUnlink(db: Db, placeId: string, amenityId: string)
    requires Key(Place, placeId) in db.objects && Key(Amenity, amenityId) in db.objects
    requires AmenityIds(db, placeId).List? && Str(amenityId) !in AmenityIds(db, placeId).items
    ensures Unlink(Link(db, placeId, amenityId).after, placeId, amenityId).outcome == Success(200, Empty)
    ensures AmenityIds(Unlink(Link(db, placeId, amenityId).after, placeId, amenityId).after, placeId) == AmenityIds(db, placeId)
  {
    RemoveAppended(AmenityIds(db, placeId).items, Str(amenityId));
  }

  /** The handler `delete_amenity_from_place`, on the shared store. */
  method DeleteAmenityFromPlace(s: Storage, placeId: string, amenityId: string) returns (o: Outcome)
    requires s.Valid()
    modifies s
    ensures s.Valid()
    ensures Step(o, s.View()) == Unlink(old(s.View()), placeId, amenityId)
  {
    var place := Key(Place, placeId);
    if Find(s.View(), Place, Str(placeId)).None? || Find(s.View(), Amenity, Str(amenityId)).None? {
      return NotFound;
    }
    var links := AmenityIds(s.View(), placeId);
    if !links.List? {
      return ServerError("AttributeError");
    }
    if Str(amenityId) !in links.items {
      return NotFound;
    }
    s.Save(place, s.objects[place]["amenity_ids" := List(RemoveFirst(links.items, Str(amenityId)))]);
    o := Success(200, Empty);
  }

  /** The handler `add_amenity_to_place`, on the shared store. */
  method AddAmenityToPlace(s: Storage, placeId: string, amenityId: string) returns (o: Outcome)
    requires s.Valid()
    modifies s
    ensures s.Valid()
    ensures Step(o, s.View()) == Link(old(s.View()), placeId, amenityId)
  {
    var place := Key(Place, placeId);
    var amenity := Key(Amenity, amenityId);
    if Find(s.View(), Place, Str(placeId)).None? || Find(s.View(), Amenity, Str(amenityId)).None? {
      return NotFound;
    }
    var links := AmenityIds(s.View(), placeId);
    var linked := Contains(links, Str(amenityId));
    if linked.Raised? {
      return ServerError(linked.exception);
    }
    if linked.value {
      return Success(200, Item(amenityId, s.objects[amenity]));
    }
    if !links.List? {
      return ServerError("AttributeError");
    }
    s.Save(place, s.objects[place]["amenity_ids" := List(links.items + [Str(amenityId)])]);
    o := Success(201, Item(amenityId, s.objects[amenity]));
  }
}

=== FILE: places_reviews.dfy ===
/**
 * api/v1/views/places_reviews.py: the `/places/<place_id>/reviews` and
 * `/reviews/<review_id>` routes.
 */
module ReviewsView {
  import opened Results
  import opened Json
  import opened Objects
  import opened Engine
  import opened Views

  /** The body keys `update_review` never copies onto the Review. */
  const ReviewIgnored: set<string> := {"id", "created_at", "updated_at", "user_id", "place_id"}

  /** `place.reviews`: the stored Reviews whose `place_id` is the place's id, in storage order. */
  function ReviewsOf(db: Db, placeId: string): (r: seq<string>)
    ensures forall id :: id in r <==>
      Key(Review, id) in db.order && Key(Review, id) in db.objects && AttrOf(Review, db.objects[Key(Review, id)], "place_id") == Str(placeId)
  {
    Where(db, Review, "place_id", placeId)
  }

  /**
   * `GET /places/<place_id>/reviews`: 404 for an unknown Place, otherwise
   * the stored Reviews that reference it.
   */
  function GetReviews(s: Storage, placeId: string): (o: Outcome)
    reads s
    requires s.Valid()
    ensures o.Success? <==> Key(Place, placeId) in s.objects
    ensures !o.Success? ==> o == NotFound
    ensures o.Success? ==> o.code == 200 && o.payload.Items?
    ensures o.Success? ==> forall r :: r in o.payload.ids <==>
      Key(Review, r) in s.objects && AttrOf(Review, s.objects[Key(Review, r)], "place_id") == Str(placeId)
    ensures o.Success? ==> Subseq(o.payload.ids, All(s.View(), Review))
  {
    if Find(s.View(), Place, Str(placeId)).Some? then
      WhereExactly(s.View(), Review, "place_id", placeId);
      Success(200, Items(ReviewsOf(s.View(), placeId)))
    else
      NotFound
  }

  /** `GET /reviews/<review_id>`: the Review, or 404 for an unknown id. */
  function GetReview(s: Storage, id: string): (o: Outcome)
    reads s
    ensures o.Success? <==> Key(Review, id) in s.objects
    ensures o.Success? ==> o == Success(200, Item(id, s.objects[Key(Review, id)]))
    ensures !o.Success? ==> o == NotFound
  {
    match Find(s.View(), Review, Str(id))
    case Some(attrs) => Success(200, Item(id, attrs))
    case None => NotFound
  }

  /**
   * `DELETE /reviews/<review_id>`: an existing Review is deleted, exactly that
   * one object, and `{}` is returned; an unknown id gives 404 and changes
   * nothing.
   */
  method DeleteReview(s: Storage, id: string) returns (o: Outcome)
    requires s.Valid()
    modifies s
    ensures s.Valid()
    ensures Key(Review, id) in old(s.objects) ==>
      && o == Success(200, Empty)
      && s.View() == Deleted(old(s.View()), s.engine, Key(Review, id))
      && s.objects == old(s.objects) - {Key(Review, id)}
      && Count(s.View(), Review) == Count(old(s.View()), Review) - 1
    ensures Key(Review, id) !in old(s.objects) ==> o == NotFound && s.View() == old(s.View())
    ensures GetReview(s, id) == NotFound
  {
    if Find(s.View(), Review, Str(id)).Some? {
      DeleteOneCounts(s.View(), s.engine, Key(Review, id), Review);
      s.Delete(Key(Review, id));
      o := Success(200, Empty);
    } else {
      o := NotFound;
    }
  }

  /**
   * `POST /places/<place_id>/reviews`: a Review is stored, under the fresh id
   * `newId` and with `place_id` forced to the path id, only when the Place,
   * the User named by `user_id` and a truthy `text` all exist. Otherwise the
   * errors come in the order "Missing text", "Missing user_id", "Not a JSON"
   * (a missing body or `{}`), 404.
   */
  method CreateReview(s: Storage, placeId: string, body: Body, newId: string) returns (o: Outcome)
    requires s.Valid() && Key(Review, newId) !in s.objects
    modifies s
    ensures s.Valid()
    ensures o.Success? <==>
      && Key(Place, placeId) in old(s.objects)
      && Find(old(s.View()), User, Lookup(Data(body), "user_id")).Some?
      && Has(body, "text")
    ensures o.Success? ==>
      && o == Success(201, Item(newId, body.fields["place_id" := Str(placeId)]))
      && s.View() == Inserted(old(s.View()), Key(Review, newId), body.fields["place_id" := Str(placeId)])
      && newId in ReviewsOf(s.View(), placeId)
      && Count(s.View(), Review) == Count(old(s.View()), Review) + 1
    ensures !o.Success? ==> s.View() == old(s.View())
    ensures !o.Success? && Present(body) && !Has(body, "text") ==> o == BadRequest("Missing text")
    ensures !o.Success? && Has(body, "text") && !Has(body, "user_id") ==> o == BadRequest("Missing user_id")
    ensures !Present(body) ==> o == BadRequest(NotAJson)
    ensures !o.Success? && Has(body, "text") && Has(body, "user_id") ==> o == NotFound
  {
    var place := Find(s.View(), Place, Str(placeId));
    var user := if Present(body) then Find(s.View(), User, Lookup(body.fields, "user_id")) else None;
    if place.Some? && user.Some? && Present(body) && Has(body, "text") {
      var attrs := body.fields["place_id" := Str(placeId)];
      CountInserted(s.View(), Key(Review, newId), attrs, Review);
      s.New(Key(Review, newId), attrs);
      WhereExactly(s.View(), Review, "place_id", placeId);
      o := Success(201, Item(newId, attrs));
    } else if Present(body) && !Has(body, "text") {
      o := BadRequest("Missing text");
    } else if Present(body) && !Has(body, "user_id") {
      o := BadRequest("Missing user_id");
    } else if !Present(body) {
      o := BadRequest(NotAJson);
    } else {
      o := NotFound;
    }
  }

  /**
   * `PUT /reviews/<review_id>`, the body's keys iterated in the order `keys`: "Not a JSON" comes first, then 404 for an unknown id;
   * otherwise every body key outside `ReviewIgnored` is set on the Review, each
   * followed at once by `save()`. It answers 200 with the merged Review
   * exactly when the update is `Accepted`; otherwise 500, and the store
   * keeps the keys saved before the one that raised.
   */
  method UpdateReview(s: Storage, id: string, body: Body, keys: seq<string>) returns (o: Outcome)
    requires s.Valid()
    requires body.Json? ==> forall k :: k in keys <==> k in body.fields
    modifies s
    ensures s.Valid()
    ensures !Present(body) ==> o == BadRequest(NotAJson) && s.View() == old(s.View())
    ensures Key(Review, id) !in old(s.objects) && Present(body) ==> o == NotFound && s.View() == old(s.View())
    ensures Key(Review, id) in old(s.objects) && Present(body) ==>
      var p := Update(Review, s.engine, old(s.objects[Key(Review, id)]), keys, Plain(body.fields), ReviewIgnored, true);
      o == Respond(id, p) && s.View() == Updated(old(s.View()), Key(Review, id), p.saved)
    ensures Key(Review, id) in old(s.objects) && Present(body) ==>
      (o.Success? <==> Accepted(Review, s.engine, old(s.objects[Key(Review, id)]), Plain(body.fields), ReviewIgnored, true))
    ensures Key(Review, id) in old(s.objects) && Present(body) && o.Success? ==>
      && o == Success(200, Item(id, s.objects[Key(Review, id)]))
      && s.View() == Updated(old(s.View()), Key(Review, id), Merge(old(s.objects[Key(Review, id)]), body.fields, ReviewIgnored))
      && Keeps(old(s.objects[Key(Review, id)]), s.objects[Key(Review, id)], ReviewIgnored)
      && SetsAll(s.objects[Key(Review, id)], body.fields, ReviewIgnored)
    ensures Key(Review, id) in old(s.objects) && Present(body) && !o.Success? ==> o.ServerError?
  {
    var key := Key(Review, id);
    if !Present(body) {
      o := BadRequest(NotAJson);
    } else if Find(s.View(), Review, Str(id)).None? {
      o := NotFound;
    } else {
      assert OkValues(Plain(body.fields)) == body.fields;
      o := UpdateObject(s, key, id, keys, Plain(body.fields), ReviewIgnored, true);
    }
  }
}

=== FILE: results.dfy ===
/** Optional values and the outcome of Python code that may raise. */
module Results {

  datatype Option<+T> = None | Some(value: T)

  /** A value, or the name of the Python exception raised while computing it. */
  datatype Result<+T> = Ok(value: T) | Raised(exception: string) {

    predicate IsFailure() {
      Raised?
    }

    function PropagateFailure<U>(): Result<U>
      requires Raised?
    {
      Raised(exception)
    }

    function Extract(): T
      requires Ok?
    {
      value
    }
  }
}

=== FILE: search.dfy ===
/**
 * `search_place` of api/v1/views/places.py (`POST /places_search`): the
 * places of the listed states, then those of the listed cities whose state
 * was not listed, or every place when neither is listed; then only the
 * places linked to every listed amenity.
 */
module PlaceSearch {
  import opened Results
  import opened Json
  import opened Objects
  import opened CityModel
  import opened Engine
  import opened Views

  /** The places of the cities `cityIds`, city after city (`places.extend(city.places)`). */
  function CityPlaces(db: Db, cityIds: seq<string>): (r: seq<string>)
    ensures forall p | p in r :: Key(Place, p) in db.order
  {
    if cityIds == [] then []
    else CityPlaces(db, cityIds[..|cityIds| - 1]) + Places(db, cityIds[|cityIds| - 1])
  }

  /**
   * What the `states` loop adds: for every listed id that names a stored
   * State, the places of each of its cities; other ids are skipped.
   */
  function StatePlaces(db: Db, stateIds: seq<Value>): (r: seq<string>)
    ensures forall p | p in r :: Key(Place, p) in db.order
  {
    if stateIds == [] then []
    else
      var last := stateIds[|stateIds| - 1];
      StatePlaces(db, stateIds[..|stateIds| - 1]) +
        (if Find(db, State, last).Some? then CityPlaces(db, CitiesOf(db, last.s)) else [])
  }

  /**
   * What one listed city id adds in the `cities` loop: nothing for an id that
   * names no stored City; for a stored City, nothing when its `state_id` is
   * `in` the listed states and its places otherwise. `state_ids` is only
   * bound when `states` was truthy, so reading it raises UnboundLocalError
   * otherwise, and `in` itself may raise.
   */
  function CityContribution(db: Db, stateIds: Option<Value>, cityId: Value): (r: Result<seq<string>>)
    ensures Find(db, City, cityId).None? ==> r == Ok([])
    ensures stateIds.None? ==> (r.Raised? <==> Find(db, City, cityId).Some?)
    ensures r.Ok? ==> forall p | p in r.value :: Key(Place, p) in db.order
  {
    if Find(db, City, cityId).None? then Ok([])
    else if stateIds.None? then Raised("UnboundLocalError")
    else
      var listed :- Contains(stateIds.value, AttrOf(City, db.objects[Key(City, cityId.s)], "state_id"));
      Ok(if listed then [] else Places(db, cityId.s))
  }

  /** What the `cities` loop adds, or the first exception it raises. */
  function FromCities(db: Db, stateIds: Option<Value>, cityIds: seq<Value>): (r: Result<seq<string>>)
    ensures r.Ok? ==> forall p | p in r.value :: Key(Place, p) in db.order
    ensures stateIds.None? && r.Ok? ==> r.value == []
  {
    if cityIds == [] then Ok([])
    else
      var before :- FromCities(db, stateIds, cityIds[..|cityIds| - 1]);
      var more :- CityContribution(db, stateIds, cityIds[|cityIds| - 1]);
      Ok(before + more)
  }

  /**
   * The inner `amenities` loop for one place: the ids are checked in order
   * with `in` against the place's `amenity_ids`, stopping at the first one
   * that is missing (or at the first test that raises).
   */
  function HasAll(links: Value, wanted: seq<Value>): (r: Result<bool>)
    ensures r == Ok(true) ==> forall i | 0 <= i < |wanted| :: Contains(links, wanted[i]) == Ok(true)
  {
    if wanted == [] then Ok(true)
    else
      var before :- HasAll(links, wanted[..|wanted| - 1]);
      if !before then Ok(false) else Contains(links, wanted[|wanted| - 1])
  }

  /** The places of `candidates`, in order, that pass `HasAll`. */
  function KeepWithAll(db: Db, candidates: seq<string>, wanted: seq<Value>): (r: Result<seq<string>>)
    ensures r.Ok? ==> |r.value| <= |candidates| && forall p | p in r.value :: p in candidates
  {
    if candidates == [] then Ok([])
    else
      var kept :- KeepWithAll(db, candidates[..|candidates| - 1], wanted);
      var last := candidates[|candidates| - 1];
      var all :- HasAll(AmenityIds(db, last), wanted);
      Ok(kept + if all then [last] else [])
  }

  /**
   * The places a search body selects, or the exception the handler raises
   * (`len` of a number or boolean raises TypeError, see `Iterate`).
   */
  function Matches(db: Db, f: Fields): (r: Result<seq<string>>)
    ensures r.Ok? ==> forall p | p in r.value :: Key(Place, p) in db.order
  {
    var states := Lookup(f, "states");
    var cities := Lookup(f, "cities");
    var amenities := Lookup(f, "amenities");
    var start := if !Truthy(states) && !Truthy(cities) then All(db, Place) else [];
    var stateList :- if Truthy(states) then Iterate(states) else Ok([]);
    var cityList :- if Truthy(cities) then Iterate(cities) else Ok([]);
    var fromCities :- FromCities(db, if Truthy(states) then Some(states) else None, cityList);
    var candidates := start + StatePlaces(db, stateList) + fromCities;
    if Truthy(amenities) then
      var wanted :- Iterate(amenities);
      KeepWithAll(db, candidates, wanted)
    else
      Ok(candidates)
  }

  /**
   * `POST /places_search`: a missing body is "Not a JSON"; any JSON object,
   * `{}` included, gives the matching places or the 500 of the exception.
   */
  function Search(db: Db, body: Body): (o: Outcome)
    ensures body.NoJson? <==> o == BadRequest(NotAJson)
    ensures body.Json? ==> (o.Success? && o.code == 200 && o.payload.Items?) || o.ServerError?
    ensures body.Json? && !Truthy(Lookup(body.fields, "states")) && !Truthy(Lookup(body.fields, "cities"))
                       && !Truthy(Lookup(body.fields, "amenities")) ==>
      o == Success(200, Items(All(db, Place)))
  {
    if body.NoJson? then BadRequest(NotAJson)
    else
      match Matches(db, body.fields)
      case Ok(places) => Success(200, Items(places))
      case Raised(e) => ServerError(e)
  }

  /** Once the `cities` loop has raised, the rest of the list does not matter. */
  lemma {:induction false} FromCitiesSettled(db: Db, stateIds: Option<Value>, cityIds: seq<Value>, i: nat)
    requires i <= |cityIds| && FromCities(db, stateIds, cityIds[..i]).Raised?
    ensures FromCities(db, stateIds, cityIds) == FromCities(db, stateIds, cityIds[..i])
    decreases |cityIds|
  {
    if i < |cityIds| {
      var init := cityIds[..|cityIds| - 1];
      assert init[..i] == cityIds[..i];
      FromCitiesSettled(db, stateIds, init, i);
    } else {
      assert cityIds[..i] == cityIds;
    }
  }

  /** Once one test has failed or raised, the rest of the amenity ids are not checked. */
  lemma {:induction false} HasAllSettled(links: Value, wanted: seq<Value>, j: nat)
    requires j <= |wanted| && HasAll(links, wanted[..j]) != Ok(true)
    ensures HasAll(links, wanted) == HasAll(links, wanted[..j])
    decreases |wanted|
  {
    if j < |wanted| {
      var init := wanted[..|wanted| - 1];
      assert init[..j] == wanted[..j];
      HasAllSettled(links, init, j);
    } else {
      assert wanted[..j] == wanted;
    }
  }

  /** Once the filter has raised, the remaining candidates do not matter. */
  lemma {:induction false} KeepWithAllSettled(db: Db, candidates: seq<string>, wanted: seq<Value>, i: nat)
    requires i <= |candidates| && KeepWithAll(db, candidates[..i], wanted).Raised?
    ensures KeepWithAll(db, candidates, wanted) == KeepWithAll(db, candidates[..i], wanted)
    decreases |candidates|
  {
    if i < |candidates| {
      var init := candidates[..|candidates| - 1];
      assert init[..i] == candidates[..i];
      KeepWithAllSettled(db, init, wanted, i);
    } else {
      assert candidates[..i] == candidates;
    }
  }

  /** The stored City `c` belongs to the State `st`. */
  ghost predicate CityIn(db: Db, c: string, st: string) {
    Key(City, c) in db.objects && AttrOf(City, db.objects[Key(City, c)], "state_id") == Str(st)
  }

  /** The Place `p` is stored in one of the cities of the State `st`. */
  ghost predicate PlaceInState(db: Db, p: string, st: string) {
    exists c :: CityIn(db, c, st) && PlaceIn(db, p, c)
  }

  /** The stored City `c`, whose `state_id` is not one of the listed `states`. */
  ghost predicate CityOutside(db: Db, c: string, states: seq<Value>) {
    Key(City, c) in db.objects && AttrOf(City, db.objects[Key(City, c)], "state_id") !in states
  }

  /** `ids` lists the id of a stored State. */
  ghost predicate ListsState(db: Db, ids: seq<Value>, st: string) {
    Str(st) in ids && Key(State, st) in db.objects
  }

  /** `ids` lists the id of a stored City. */
  ghost predicate ListsStoredCity(db: Db, ids: seq<Value>) {
    exists v :: v in ids && Find(db, City, v).Some?
  }

  lemma {:induction false} CityPlacesExactly(db: Db, cityIds: seq<string>)
    requires Valid(db)
    ensures forall p :: p in CityPlaces(db, cityIds) <==> exists c :: c in cityIds && PlaceIn(db, p, c)
  {
    if cityIds != [] {
      var init := cityIds[..|cityIds| - 1];
      var last := cityIds[|cityIds| - 1];
      CityPlacesExactly(db, init);
      PlacesExactly(db, last);
      assert cityIds == init + [last];
      forall p | p in CityPlaces(db, cityIds)
        ensures exists c :: c in cityIds && PlaceIn(db, p, c)
      {
        if p in CityPlaces(db, init) {
          var c :| c in init && PlaceIn(db, p, c);
          assert c in cityIds;
        } else {
          assert PlaceIn(db, p, last);
        }
      }
      forall p, c | c in cityIds && PlaceIn(db, p, c)
        ensures p in CityPlaces(db, cityIds)
      {
        if c != last {
          assert c in init;
        }
      }
    }
  }

  /**
   * The `states` loop adds exactly the places of the cities of the listed
   * ids that name stored States; unknown ids add nothing.
   */
  lemma {:induction false} StatePlacesExactly(db: Db, stateIds: seq<Value>)
    requires Valid(db)
    ensures forall p :: p in StatePlaces(db, stateIds) <==> exists st :: ListsState(db, stateIds, st) && PlaceInState(db, p, st)
  {
    if stateIds != [] {
      var init := stateIds[..|stateIds| - 1];
      var last := stateIds[|stateIds| - 1];
      assert stateIds == init + [last];
      StatePlacesExactly(db, init);
      var added := if Find(db, State, last).Some? then CityPlaces(db, CitiesOf(db, last.s)) else [];
      assert StatePlaces(db, stateIds) == StatePlaces(db, init) + added;
      if Find(db, State, last).Some? {
        CityPlacesExactly(db, CitiesOf(db, last.s));
        WhereExactly(db, City, "state_id", last.s);
        forall p ensures p in added <==> PlaceInState(db, p, last.s) {
          if p in added {
            var c :| c in CitiesOf(db, last.s) && PlaceIn(db, p, c);
            assert CityIn(db, c, last.s);
          }
          if PlaceInState(db, p, last.s) {
            var c :| CityIn(db, c, last.s) && PlaceIn(db, p, c);
            assert c in CitiesOf(db, last.s);
          }
        }
      }
      forall p ensures p in StatePlaces(db, stateIds) <==> exists st :: ListsState(db, stateIds, st) && PlaceInState(db, p, st) {
        if p in StatePlaces(db, init) {
          var st :| ListsState(db, init, st) && PlaceInState(db, p, st);
          assert ListsState(db, stateIds, st);
        } else if p in added {
          assert ListsState(db, stateIds, last.s);
        }
        if exists st :: ListsState(db, stateIds, st) && PlaceInState(db, p, st) {
          var st :| ListsState(db, stateIds, st) && PlaceInState(db, p, st);
          if Str(st) != last {
            assert ListsState(db, init, st);
          }
        }
      }
    }
  }

  /**
   * With a list of states, the `cities` loop never raises and adds exactly
   * the places of the listed stored Cities whose state is not listed: a city
   * of a listed state adds nothing, and unknown ids add nothing.
   */
  lemma {:induction false} CitiesExactly(db: Db, states: seq<Value>, cityIds: seq<Value>)
    requires Valid(db)
    ensures FromCities(db, Some(List(states)), cityIds).Ok?
    ensures forall p :: p in FromCities(db, Some(List(states)), cityIds).value <==>
      exists c :: Str(c) in cityIds && CityOutside(db, c, states) && PlaceIn(db, p, c)
  {
    if cityIds != [] {
      var init := cityIds[..|cityIds| - 1];
      var last := cityIds[|cityIds| - 1];
      assert cityIds == init + [last];
      CitiesExactly(db, states, init);
      var before := FromCities(db, Some(List(states)), init).value;
      var more := CityContribution(db, Some(List(states)), last);
      assert more.Ok?;
      assert FromCities(db, Some(List(states)), cityIds) == Ok(before + more.value);
      if Find(db, City, last).Some? {
        PlacesExactly(db, last.s);
      }
      forall p ensures p in more.value <==> last.Str? && CityOutside(db, last.s, states) && PlaceIn(db, p, last.s) {
      }
      forall p ensures p in before + more.value <==> exists c :: Str(c) in cityIds && CityOutside(db, c, states) && PlaceIn(db, p, c) {
        if p in before {
          var c :| Str(c) in init && CityOutside(db, c, states) && PlaceIn(db, p, c);
          assert Str(c) in cityIds;
        }
        if exists c :: Str(c) in cityIds && CityOutside(db, c, states) && PlaceIn(db, p, c) {
          var c :| Str(c) in cityIds && CityOutside(db, c, states) && PlaceIn(db, p, c);
          if Str(c) != last {
            assert Str(c) in init;
          }
        }
      }
    }
  }

  /**
   * No double counting: with a list of states, no place the `states` loop
   * added is added again by the `cities` loop.
   */
  lemma NoDoubleCounting(db: Db, states: seq<Value>, cityIds: seq<Value>)
    requires Valid(db)
    ensures FromCities(db, Some(List(states)), cityIds).Ok?
    ensures forall p :: p in StatePlaces(db, states) ==> p !in FromCities(db, Some(List(states)), cityIds).value
  {
    StatePlacesExactly(db, states);
    CitiesExactly(db, states, cityIds);
    forall p | p in StatePlaces(db, states)
      ensures forall c :: PlaceIn(db, p, c) ==> !CityOutside(db, c, states)
    {
      var st :| ListsState(db, states, st) && PlaceInState(db, p, st);
      var c0 :| CityIn(db, c0, st) && PlaceIn(db, p, c0);
      forall c | PlaceIn(db, p, c)
        ensures !CityOutside(db, c, states)
      {
        assert Str(c) == Str(c0);
      }
    }
  }

  /**
   * Without a truthy `states`, the `cities` loop raises UnboundLocalError
   * exactly when it meets the id of a stored City, and adds nothing otherwise.
   */
  lemma {:induction false} UnboundExactly(db: Db, cityIds: seq<Value>)
    ensures ListsStoredCity(db, cityIds) ==> FromCities(db, None, cityIds) == Raised("UnboundLocalError")
    ensures !ListsStoredCity(db, cityIds) ==> FromCities(db, None, cityIds) == Ok([])
  {
    if cityIds != [] {
      var init := cityIds[..|cityIds| - 1];
      var last := cityIds[|cityIds| - 1];
      assert cityIds == init + [last];
      UnboundExactly(db, init);
      if ListsStoredCity(db, init) {
        var v :| v in init && Find(db, City, v).Some?;
        assert v in cityIds;
      } else if Find(db, City, last).Some? {
        assert ListsStoredCity(db, cityIds);
      } else {
        forall v | v in cityIds
          ensures Find(db, City, v).None?
        {
          if v != last {
            assert v in init;
          }
        }
        var none: seq<string> := [];
        assert none + none == none;
        assert FromCities(db, None, cityIds) == Ok(none + none);
      }
    }
  }

  /**
   * The quirk of places.py:233: a body whose `states` is missing or falsy and
   * whose `cities` list names a stored City makes the handler fail with
   * UnboundLocalError.
   */
  lemma SearchUnbound(db: Db, f: Fields, cityIds: seq<Value>)
    requires !Truthy(Lookup(f, "states")) && Lookup(f, "cities") == List(cityIds)
    requires ListsStoredCity(db, cityIds)
    ensures Search(db, Json(f)) == ServerError("UnboundLocalError")
  {
    UnboundExactly(db, cityIds);
  }

  /** With a list of amenity ids, `HasAll` is list inclusion. */
  lemma {:induction false} HasAllList(items: seq<Value>, wanted: seq<Value>)
    ensures HasAll(List(items), wanted) == Ok(forall w :: w in wanted ==> w in items)
  {
    if wanted != [] {
      var init := wanted[..|wanted| - 1];
      assert wanted == init + [wanted[|wanted| - 1]];
      HasAllList(items, init);
    }
  }

  /** One more candidate: it is kept exactly when its list holds every wanted id. */
  lemma KeepWithAllStep(db: Db, init: seq<string>, last: string, wanted: seq<Value>)
    requires AmenityIds(db, last).List?
    requires KeepWithAll(db, init, wanted).Ok?
    ensures KeepWithAll(db, init + [last], wanted) ==
      Ok(KeepWithAll(db, init, wanted).value +
         if forall w :: w in wanted ==> w in AmenityIds(db, last).items then [last] else [])
  {
    assert (init + [last])[..|init|] == init;
    HasAllList(AmenityIds(db, last).items, wanted);
  }

  /**
   * The amenities filter keeps, in their order, exactly the candidates whose
   * `amenity_ids` contain every listed amenity; it raises only on a
   * candidate whose `amenity_ids` is not a list.
   */
  lemma {:induction false} KeepWithAllExactly(db: Db, candidates: seq<string>, wanted: seq<Value>)
    requires forall p :: p in candidates ==> AmenityIds(db, p).List?
    ensures KeepWithAll(db, candidates, wanted).Ok?
    ensures Subseq(KeepWithAll(db, candidates, wanted).value, candidates)
    ensures forall p :: p in KeepWithAll(db, candidates, wanted).value <==>
      p in candidates && forall w :: w in wanted ==> w in AmenityIds(db, p).items
  {
    if candidates != [] {
      var init := candidates[..|candidates| - 1];
      var last := candidates[|candidates| - 1];
      assert candidates == init + [last];
      KeepWithAllExactly(db, init, wanted);
      KeepWithAllStep(db, init, last, wanted);
      var kept := KeepWithAll(db, init, wanted).value;
      if forall w :: w in wanted ==> w in AmenityIds(db, last).items {
        SubseqSnoc(kept, init, last);
      } else {
        assert KeepWithAll(db, candidates, wanted).value == kept;
        SubseqAppend(kept, init, last);
      }
    }
  }

  /**
   * A search by a non-empty list of states, a list of cities (or none) and a
   * list of amenities (or none), over a store where every Place's `amenity_ids` is a list,
   * succeeds and returns exactly the places of the listed states' cities and
   * of the listed cities outside those states that are linked to every
   * listed amenity.
   */
  lemma SearchSelects(db: Db, f: Fields, states: seq<Value>, cities: seq<Value>, amenities: seq<Value>)
    requires Valid(db)
    requires forall p :: Key(Place, p) in db.objects ==> AmenityIds(db, p).List?
    requires Lookup(f, "states") == List(states) && states != []
    requires Lookup(f, "cities") == List(cities) || (!Truthy(Lookup(f, "cities")) && cities == [])
    requires Lookup(f, "amenities") == List(amenities) || (!Truthy(Lookup(f, "amenities")) && amenities == [])
    ensures Search(db, Json(f)).Success?
    ensures forall p :: p in Search(db, Json(f)).payload.ids <==>
      && ((exists st :: ListsState(db, states, st) && PlaceInState(db, p, st)) ||
          (exists c :: Str(c) in cities && CityOutside(db, c, states) && PlaceIn(db, p, c)))
      && (forall w :: w in amenities ==> w in AmenityIds(db, p).items)
  {
    StatePlacesExactly(db, states);
    CitiesExactly(db, states, cities);
    var fromCities := FromCities(db, Some(List(states)), cities).value;
    var candidates := StatePlaces(db, states) + fromCities;
    assert Truthy(List(states)) && Iterate(List(states)) == Ok(states);
    assert (if Truthy(Lookup(f, "cities")) then Iterate(Lookup(f, "cities")) else Ok([])) == Ok(cities);
    var none: seq<string> := [];
    assert none + StatePlaces(db, states) + fromCities == candidates;
    assert Matches(db, f) == if amenities == [] then Ok(candidates) else KeepWithAll(db, candidates, amenities);
    forall p | p in candidates
      ensures Key(Place, p) in db.objects
    {
      if p in StatePlaces(db, states) {
        var st :| ListsState(db, states, st) && PlaceInState(db, p, st);
      } else {
        var c :| Str(c) in cities && CityOutside(db, c, states) && PlaceIn(db, p, c);
      }
    }
    KeepWithAllExactly(db, candidates, amenities);
  }

  /**
   * A search that lists neither states nor cities starts from every stored
   * Place; with a list of amenities it keeps exactly those linked to all of
   * them, and without one it keeps them all.
   */
  lemma SearchEverything(db: Db, f: Fields, amenities: seq<Value>)
    requires Valid(db)
    requires forall p :: Key(Place, p) in db.objects ==> AmenityIds(db, p).List?
    requires !Truthy(Lookup(f, "states")) && !Truthy(Lookup(f, "cities"))
    requires Lookup(f, "amenities") == List(amenities) || (!Truthy(Lookup(f, "amenities")) && amenities == [])
    ensures Search(db, Json(f)).Success?
    ensures forall p :: p in Search(db, Json(f)).payload.ids <==>
      Key(Place, p) in db.objects && forall w :: w in amenities ==> w in AmenityIds(db, p).items
  {
    AllExactly(db, Place);
    var none: seq<string> := [];
    assert All(db, Place) + none + none == All(db, Place);
    assert Matches(db, f) == if amenities == [] then Ok(All(db, Place)) else KeepWithAll(db, All(db, Place), amenities);
    KeepWithAllExactly(db, All(db, Place), amenities);
  }

  /** The `states` loop of `search_place`, with its inner loop over `state.cities`. */
  method CollectFromStates(s: Storage, stateIds: seq<Value>) returns (places: seq<string>)
    ensures places == StatePlaces(s.View(), stateIds)
  {
    places := [];
    var i := 0;
    while i < |stateIds|
      invariant 0 <= i <= |stateIds|
      invariant places == StatePlaces(s.View(), stateIds[..i])
    {
      assert stateIds[..i + 1][..i] == stateIds[..i];
      var stateId := stateIds[i];
      if Find(s.View(), State, stateId).Some? {
        var cities := CitiesOf(s.View(), stateId.s);
        ghost var before := places;
        var j := 0;
        while j < |cities|
          invariant 0 <= j <= |cities|
          invariant places == before + CityPlaces(s.View(), cities[..j])
        {
          assert cities[..j + 1][..j] == cities[..j];
          places := places + Places(s.View(), cities[j]);
          j := j + 1;
        }
        assert cities[..j] == cities;
      }
      i := i + 1;
    }
    assert stateIds[..i] == stateIds;
  }

  /** The `cities` loop of `search_place`. */
  method CollectFromCities(s: Storage, stateIds: Option<Value>, cityIds: seq<Value>) returns (r: Result<seq<string>>)
    ensures r == FromCities(s.View(), stateIds, cityIds)
  {
    var places: seq<string> := [];
    var i := 0;
    while i < |cityIds|
      invariant 0 <= i <= |cityIds|
      invariant FromCities(s.View(), stateIds, cityIds[..i]) == Ok(places)
    {
      assert cityIds[..i + 1][..i] == cityIds[..i];
      var more := CityContribution(s.View(), stateIds, cityIds[i]);
      if more.Raised? {
        FromCitiesSettled(s.View(), stateIds, cityIds, i + 1);
        return Raised(more.exception);
      }
      places := places + more.value;
      i := i + 1;
    }
    assert cityIds[..i] == cityIds;
    r := Ok(places);
  }

  /**
   * The `amenities` filter of `search_place`: for each candidate, the inner
   * loop breaks at the first amenity id missing from its `amenity_ids`.
   */
  method FilterByAmenities(s: Storage, candidates: seq<string>, wanted: seq<Value>) returns (r: Result<seq<string>>)
    ensures r == KeepWithAll(s.View(), candidates, wanted)
  {
    var kept: seq<string> := [];
    var i := 0;
    while i < |candidates|
      invariant 0 <= i <= |candidates|
      invariant KeepWithAll(s.View(), candidates[..i], wanted) == Ok(kept)
    {
      assert candidates[..i + 1][..i] == candidates[..i];
      var place := candidates[i];
      var links := AmenityIds(s.View(), place);
      var valid := true;
      var j := 0;
      while j < |wanted|
        invariant 0 <= j <= |wanted|
        invariant HasAll(links, wanted[..j]) == Ok(true)
      {
        assert wanted[..j + 1][..j] == wanted[..j];
        var found := Contains(links, wanted[j]);
        if found.Raised? {
          HasAllSettled(links, wanted, j + 1);
          KeepWithAllSettled(s.View(), candidates, wanted, i + 1);
          return Raised(found.exception);
        }
        if !found.value {
          HasAllSettled(links, wanted, j + 1);
          valid := false;
          break;
        }
        j := j + 1;
      }
      if valid {
        assert wanted[..j] == wanted;
      }
      assert HasAll(links, wanted) == Ok(valid);
      assert KeepWithAll(s.View(), candidates[..i + 1], wanted) == Ok(kept + if valid then [place] else []);
      if valid {
        kept := kept + [place];
      } else {
        assert kept + [] == kept;
      }
      i := i + 1;
    }
    assert candidates[..i] == candidates;
    r := Ok(kept);
  }

  /** `search_place`, on the shared store. */
  method SearchPlaces(s: Storage, body: Body) returns (o: Outcome)
    ensures o == Search(s.View(), body)
  {
    if body.NoJson? {
      return BadRequest(NotAJson);
    }
    var states := Lookup(body.fields, "states");
    var cities := Lookup(body.fields, "cities");
    var amenities := Lookup(body.fields, "amenities");
    var places: seq<string> := [];
    if !Truthy(states) && !Truthy(cities) {
      places := All(s.View(), Place);
    }
    ghost var start := places;
    ghost var stateList: seq<Value> := [];
    ghost var cityList: seq<Value> := [];
    var stateIds: Option<Value> := None;
    if Truthy(states) {
      var ids := Iterate(states);
      if ids.Raised? {
        return ServerError(ids.exception);
      }
      stateList := ids.value;
      var more := CollectFromStates(s, ids.value);
      places := places + more;
      stateIds := Some(states);
    }
    if Truthy(cities) {
      var ids := Iterate(cities);
      if ids.Raised? {
        return ServerError(ids.exception);
      }
      cityList := ids.value;
      var more := CollectFromCities(s, stateIds, ids.value);
      if more.Raised? {
        return ServerError(more.exception);
      }
      places := places + more.value;
    }
    assert FromCities(s.View(), stateIds, cityList).Ok?;
    assert places == start + StatePlaces(s.View(), stateList) + FromCities(s.View(), stateIds, cityList).value;
    if Truthy(amenities) {
      var ids := Iterate(amenities);
      if ids.Raised? {
        return ServerError(ids.exception);
      }
      var valid := FilterByAmenities(s, places, ids.value);
      if valid.Raised? {
        return ServerError(valid.exception);
      }
      places := valid.value;
    }
    o := Success(200, Items(places));
  }
}

=== FILE: states.dfy ===
/**
 * api/v1/views/states.py: the `/states` and `/states/<state_id>` routes.
 */
module StatesView {
  import opened Json
  import opened Objects
  import opened Engine
  import opened Views

  /** The body keys `update_state` never copies onto the State. */
  const StateIgnored: set<string> := {"id", "created_at", "updated_at"}

  /** `GET /states`: every stored State, each once. */
  function GetStates(s: Storage): (o: Outcome)
    reads s
    requires s.Valid()
    ensures o.Success? && o.code == 200 && o.payload.Items?
    ensures forall id :: id in o.payload.ids <==> Key(State, id) in s.objects
    ensures NoDup(o.payload.ids)
  {
    AllExactly(s.View(), State);
    Success(200, Items(All(s.View(), State)))
  }

  /** `GET /states/<state_id>`: the State, or 404 for an unknown id. */
  function GetState(s: Storage, id: string): (o: Outcome)
    reads s
    ensures o.Success? <==> Key(State, id) in s.objects
    ensures o.Success? ==> o == Success(200, Item(id, s.objects[Key(State, id)]))
    ensures !o.Success? ==> o == NotFound
  {
    match Find(s.View(), State, Str(id))
    case Some(attrs) => Success(200, Item(id, attrs))
    case None => NotFound
  }

  /**
   * `DELETE /states/<state_id>`: an existing State is deleted (with the
   * relational engine its Cities and their Places go with it) and `{}` is
   * returned; an unknown id gives 404 and changes nothing.
   */
  method DeleteState(s: Storage, id: string) returns (o: Outcome)
    requires s.Valid()
    modifies s
    ensures s.Valid()
    ensures Key(State, id) in old(s.objects) ==>
      o == Success(200, Empty) && s.View() == Deleted(old(s.View()), s.engine, Key(State, id))
    ensures Key(State, id) !in old(s.objects) ==> o == NotFound && s.View() == old(s.View())
    ensures GetState(s, id) == NotFound
  {
    if Find(s.View(), State, Str(id)).Some? {
      s.Delete(Key(State, id));
      o := Success(200, Empty);
    } else {
      o := NotFound;
    }
  }

  /**
   * `POST /states`: a body with a truthy `name` becomes a new State under the
   * fresh id `newId` (201); otherwise "Missing name" for a non-empty object
   * and "Not a JSON" for a missing body or `{}`.
   */
  method CreateState(s: Storage, body: Body, newId: string) returns (o: Outcome)
    requires s.Valid() && Key(State, newId) !in s.objects
    modifies s
    ensures s.Valid()
    ensures Has(body, "name") ==>
      && o == Success(201, Item(newId, body.fields))
      && s.View() == Inserted(old(s.View()), Key(State, newId), body.fields)
      && Count(s.View(), State) == Count(old(s.View()), State) + 1
      && GetState(s, newId) == Success(200, Item(newId, body.fields))
    ensures !Has(body, "name") ==>
      && o == BadRequest(if Present(body) then "Missing name" else NotAJson)
      && s.View() == old(s.View())
  {
    if Has(body, "name") {
      CountInserted(s.View(), Key(State, newId), body.fields, State);
      s.New(Key(State, newId), body.fields);
      o := Success(201, Item(newId, body.fields));
    } else if Present(body) {
      o := BadRequest("Missing name");
    } else {
      o := BadRequest(NotAJson);
    }
  }

  /**
   * `PUT /states/<state_id>`, the body's keys iterated in the order `keys`:
   * 404 for an unknown id comes first, then "Not a JSON"; otherwise every
   * body key except `id`, `created_at` and `updated_at` is set on the State
   * and `save()` is called once after the loop. It answers 200 with the
   * merged State exactly when the update is `Accepted`; otherwise 500, and
   * a failure in the loop or in that `save()` leaves the store unchanged.
   */
  method UpdateState(s: Storage, id: string, body: Body, keys: seq<string>) returns (o: Outcome)
    requires s.Valid()
    requires body.Json? ==> forall k :: k in keys <==> k in body.fields
    modifies s
    ensures s.Valid()
    ensures Key(State, id) !in old(s.objects) ==> o == NotFound && s.View() == old(s.View())
    ensures Key(State, id) in old(s.objects) && !Present(body) ==>
      o == BadRequest(NotAJson) && s.View() == old(s.View())
    ensures Key(State, id) in old(s.objects) && Present(body) ==>
      var p := Update(State, s.engine, old(s.objects[Key(State, id)]), keys, Plain(body.fields), StateIgnored, false);
      && o == Respond(id, p)
      && s.View() == Updated(old(s.View()), Key(State, id), p.saved)
      && (p.error.Some? ==> s.View() == old(s.View()))
    ensures Key(State, id) in old(s.objects) && Present(body) ==>
      (o.Success? <==> Accepted(State, s.engine, old(s.objects[Key(State, id)]), Plain(body.fields), StateIgnored, false))
    ensures Key(State, id) in old(s.objects) && Present(body) && o.Success? ==>
      && o == Success(200, Item(id, s.objects[Key(State, id)]))
      && s.View() == Updated(old(s.View()), Key(State, id), Merge(old(s.objects[Key(State, id)]), body.fields, StateIgnored))
      && Keeps(old(s.objects[Key(State, id)]), s.objects[Key(State, id)], StateIgnored)
      && SetsAll(s.objects[Key(State, id)], body.fields, StateIgnored)
    ensures Key(State, id) in old(s.objects) && Present(body) && !o.Success? ==> o.ServerError?
  {
    var key := Key(State, id);
    if Find(s.View(), State, Str(id)).None? {
      o := NotFound;
    } else if !Present(body) {
      o := BadRequest(NotAJson);
    } else {
      assert OkValues(Plain(body.fields)) == body.fields;
      o := UpdateObject(s, key, id, keys, Plain(body.fields), StateIgnored, false);
    }
  }
}

=== FILE: users.dfy ===
/**
 * api/v1/views/users.py: the `/users` and `/users/<user_id>` routes. The MD5
 * hex digest `update_user` stores in place of a password is the parameter
 * `digest`.
 */
module UsersView {
  import opened Results
  import opened Json
  import opened Objects
  import opened Engine
  import opened Views

  /** The body keys `update_user` never copies onto the User. */
  const UserIgnored: set<string> := {"id", "created_at", "updated_at", "email"}

  /** Every character of `s` is a 7-bit ASCII character. */
  predicate IsAscii(s: string)
    ensures IsAscii(s) <==> forall c | c in s :: c as int < 128
  {
    assert (forall c | c in s :: c as int < 128) ==> forall i :: 0 <= i < |s| ==> s[i] as int < 128 by {
      if forall c | c in s :: c as int < 128 {
        forall i | 0 <= i < |s| ensures s[i] as int < 128 {
          assert s[i] in s;
        }
      }
    }
    forall i :: 0 <= i < |s| ==> s[i] as int < 128
  }

  /**
   * `hashlib.md5(value.encode("ascii")).hexdigest()`: only a string has
   * `encode` (AttributeError otherwise), and only an ASCII string encodes
   * (UnicodeEncodeError otherwise).
   */
  function HashPassword(v: Value, digest: string -> string): (r: Result<Value>)
    ensures r.Ok? <==> v.Str? && IsAscii(v.s)
    ensures r.Ok? ==> r.value == Str(digest(v.s))
    ensures !v.Str? ==> r == Raised("AttributeError")
    ensures v.Str? && !IsAscii(v.s) ==> r == Raised("UnicodeEncodeError")
  {
    if !v.Str? then Raised("AttributeError")
    else if !IsAscii(v.s) then Raised("UnicodeEncodeError")
    else Ok(Str(digest(v.s)))
  }

  /**
   * What the `update_user` loop hands to `setattr` for each body key: the
   * digest for `password` (or the exception computing it raises), the
   * body's value for any other key.
   */
  function UserValues(fields: Fields, digest: string -> string): (r: Values)
    ensures r.Keys == fields.Keys
    ensures forall k | k in fields && k != "password" :: r[k] == Ok(fields[k])
    ensures "password" in fields ==> r["password"] == HashPassword(fields["password"], digest)
  {
    map k | k in fields :: if k == "password" then HashPassword(fields[k], digest) else Ok(fields[k])
  }

  /** `GET /users`: every stored User, each once. */
  function GetUsers(s: Storage): (o: Outcome)
    reads s
    requires s.Valid()
    ensures o.Success? && o.code == 200 && o.payload.Items?
    ensures forall id :: id in o.payload.ids <==> Key(User, id) in s.objects
    ensures NoDup(o.payload.ids)
  {
    AllExactly(s.View(), User);
    Success(200, Items(All(s.View(), User)))
  }

  /** `GET /users/<user_id>`: the User, or 404 for an unknown id. */
  function GetUser(s: Storage, id: string): (o: Outcome)
    reads s
    ensures o.Success? <==> Key(User, id) in s.objects
    ensures o.Success? ==> o == Success(200, Item(id, s.objects[Key(User, id)]))
    ensures !o.Success? ==> o == NotFound
  {
    match Find(s.View(), User, Str(id))
    case Some(attrs) => Success(200, Item(id, attrs))
    case None => NotFound
  }

  /**
   * `DELETE /users/<user_id>`: an existing User is deleted, and nothing else,
   * and `{}` is returned; an unknown id gives 404 and changes nothing.
   */
  method DeleteUser(s: Storage, id: string) returns (o: Outcome)
    requires s.Valid()
    modifies s
    ensures s.Valid()
    ensures Key(User, id) in old(s.objects) ==>
      && o == Success(200, Empty)
      && s.View() == Deleted(old(s.View()), s.engine, Key(User, id))
      && s.objects == old(s.objects) - {Key(User, id)}
      && Count(s.View(), User) == Count(old(s.View()), User) - 1
    ensures Key(User, id) !in old(s.objects) ==> o == NotFound && s.View() == old(s.View())
    ensures GetUser(s, id) == NotFound
  {
    if Find(s.View(), User, Str(id)).Some? {
      DeleteOneCounts(s.View(), s.engine, Key(User, id), User);
      s.Delete(Key(User, id));
      o := Success(200, Empty);
    } else {
      o := NotFound;
    }
  }

  /**
   * `POST /users`: a body with a truthy `email` and a truthy `password`
   * becomes exactly one new User under the fresh id `newId` (201). Otherwise
   * "Missing email" comes before "Missing password", and a missing body or
   * `{}` gives "Not a JSON".
   */
  method CreateUser(s: Storage, body: Body, newId: string) returns (o: Outcome)
    requires s.Valid() && Key(User, newId) !in s.objects
    modifies s
    ensures s.Valid()
    ensures Has(body, "email") && Has(body, "password") ==>
      && o == Success(201, Item(newId, body.fields))
      && s.View() == Inserted(old(s.View()), Key(User, newId), body.fields)
      && Count(s.View(), User) == Count(old(s.View()), User) + 1
      && (forall k :: k != User ==> Count(s.View(), k) == Count(old(s.View()), k))
    ensures !(Has(body, "email") && Has(body, "password")) ==> s.View() == old(s.View())
    ensures Present(body) && !Has(body, "email") ==> o == BadRequest("Missing email")
    ensures Has(body, "email") && !Has(body, "password") ==> o == BadRequest("Missing password")
    ensures !Present(body) ==> o == BadRequest(NotAJson)
  {
    if Has(body, "email") && Has(body, "password") {
      forall k ensures Count(Inserted(s.View(), Key(User, newId), body.fields), k) == Count(s.View(), k) + (if k == User then 1 else 0) {
        CountInserted(s.View(), Key(User, newId), body.fields, k);
      }
      s.New(Key(User, newId), body.fields);
      o := Success(201, Item(newId, body.fields));
    } else if Present(body) && !Has(body, "email") {
      o := BadRequest("Missing email");
    } else if Present(body) && !Has(body, "password") {
      o := BadRequest("Missing password");
    } else {
      o := BadRequest(NotAJson);
    }
  }

  /**
   * A User update that goes through stores every non-ignored body value as
   * sent, except `password`, which it stores as the digest of the string
   * sent.
   */
  lemma UserMerged(engine: EngineKind, attrs: Attrs, fields: Fields, digest: string -> string)
    requires Accepted(User, engine, attrs, UserValues(fields, digest), UserIgnored, false)
    ensures var m := Merge(attrs, OkValues(UserValues(fields, digest)), UserIgnored);
      && (forall key | key in fields && key !in UserIgnored && key != "password" :: key in m && m[key] == fields[key])
      && ("password" in fields ==> fields["password"].Str? && m["password"] == Str(digest(fields["password"].s)))
  {
    var values := UserValues(fields, digest);
    if "password" in fields {
      assert values["password"].Ok?;
    }
  }

  /** A `password` whose digest raises makes the whole User update raise. */
  lemma PasswordRaises(engine: EngineKind, attrs: Attrs, keys: seq<string>, fields: Fields, digest: string -> string)
    requires forall k :: k in keys <==> k in fields
    requires "password" in fields && HashPassword(fields["password"], digest).Raised?
    ensures Update(User, engine, attrs, keys, UserValues(fields, digest), UserIgnored, false).error.Some?
  {
    LoopMeaning(User, engine, attrs, keys, UserValues(fields, digest), UserIgnored, false);
    AllKeys(User, engine, keys, UserValues(fields, digest), UserIgnored);
  }

  /**
   * `PUT /users/<user_id>`, the body's keys iterated in the order `keys`:
   * 404 for an unknown id comes first, then "Not a JSON"; otherwise every
   * body key except `id`, `created_at`, `updated_at` and `email` is set on
   * the User, `password` as the MD5 digest `digest` of its ASCII encoding,
   * and `save()` is called once after the loop. It answers 200 with the
   * merged User exactly when the update is `Accepted`; otherwise 500, and a
   * failure in the loop (a password that is not an ASCII string among
   * them) or in that `save()` leaves the store unchanged.
   */
  method UpdateUser(s: Storage, id: string, body: Body, keys: seq<string>, digest: string -> string)
    returns (o: Outcome)
    requires s.Valid()
    requires body.Json? ==> forall k :: k in keys <==> k in body.fields
    modifies s
    ensures s.Valid()
    ensures Key(User, id) !in old(s.objects) ==> o == NotFound && s.View() == old(s.View())
    ensures Key(User, id) in old(s.objects) && !Present(body) ==>
      o == BadRequest(NotAJson) && s.View() == old(s.View())
    ensures Key(User, id) in old(s.objects) && Present(body) ==>
      var p := Update(User, s.engine, old(s.objects[Key(User, id)]), keys, UserValues(body.fields, digest), UserIgnored, false);
      && o == Respond(id, p)
      && s.View() == Updated(old(s.View()), Key(User, id), p.saved)
      && (p.error.Some? ==> s.View() == old(s.View()))
    ensures Key(User, id) in old(s.objects) && Present(body) ==>
      (o.Success? <==> Accepted(User, s.engine, old(s.objects[Key(User, id)]), UserValues(body.fields, digest), UserIgnored, false))
    ensures Key(User, id) in old(s.objects) && Present(body) && o.Success? ==>
      && o == Success(200, Item(id, s.objects[Key(User, id)]))
      && s.View() == Updated(old(s.View()), Key(User, id), Merge(old(s.objects[Key(User, id)]), OkValues(UserValues(body.fields, digest)), UserIgnored))
      && Keeps(old(s.objects[Key(User, id)]), s.objects[Key(User, id)], UserIgnored)
      && (forall key | key in body.fields && key !in UserIgnored && key != "password" ::
            key in s.objects[Key(User, id)] && s.objects[Key(User, id)][key] == body.fields[key])
      && ("password" in body.fields ==>
            body.fields["password"].Str? && s.objects[Key(User, id)]["password"] == Str(digest(body.fields["password"].s)))
    ensures Key(User, id) in old(s.objects) && Present(body) && !o.Success? ==> o.ServerError?
    ensures Key(User, id) in old(s.objects) && Present(body) && "password" in body.fields &&
            HashPassword(body.fields["password"], digest).Raised? ==>
      o.ServerError? && s.View() == old(s.View())
  {
    var key := Key(User, id);
    if Find(s.View(), User, Str(id)).None? {
      o := NotFound;
    } else if !Present(body) {
      o := BadRequest(NotAJson);
    } else {
      ghost var attrs := s.objects[key];
      if "password" in body.fields && HashPassword(body.fields["password"], digest).Raised? {
        PasswordRaises(s.engine, attrs, keys, body.fields, digest);
      }
      if Accepted(User, s.engine, attrs, UserValues(body.fields, digest), UserIgnored, false) {
        UserMerged(s.engine, attrs, body.fields, digest);
      }
      o := UpdateObject(s, key, id, keys, UserValues(body.fields, digest), UserIgnored, false);
    }
  }
}

=== FILE: views.dfy ===
/**
 * What the views of api/v1/views have in common: the response a handler
 * produces (the JSON payload with its status code, or the error `abort`
 * raises) and the `setattr` loop every update handler runs over the body.
 */
module Views {
  import opened Results
  import opened Json
  import opened Objects
  import opened Engine

  /** The JSON a successful handler returns. */
  datatype Payload =
    | Item(id: string, attrs: Attrs)    // `obj.to_dict()` of one object
    | Items(ids: seq<string>)           // `[obj.to_dict() for obj in ...]`, by id, in order
    | Empty                             // `{}`
    | StatusOk                          // `{"status": "OK"}`
    | Counts(counts: map<string, nat>)  // the `/stats` object

  /**
   * A handler's response: a payload with status 200 or 201, `abort(404)`,
   * `abort(400, description=...)`, or an exception Flask turns into a 500.
   */
  datatype Outcome =
    | Success(code: int, payload: Payload)
    | NotFound
    | BadRequest(message: string)
    | ServerError(exception: string)

  const NotAJson := "Not a JSON"

  /** Every attribute named in `names` is present and equal in `after` exactly when it was in `before`. */
  ghost predicate Keeps(before: Attrs, after: Attrs, names: set<string>) {
    forall k | k in names :: (k in after <==> k in before) && (k in before ==> after[k] == before[k])
  }

  /** Every body key outside `ignored` holds the body's value in `after`. */
  ghost predicate SetsAll(after: Attrs, fields: Fields, ignored: set<string>) {
    forall k | k in fields && k !in ignored :: k in after && after[k] == fields[k]
  }

  /**
   * The attributes of an object after `setattr(obj, key, value)` for every
   * body key outside `ignored`: the body's keys are set, the ignored ones and
   * those the body does not name are left as they were.
   */
  function Merge(attrs: Attrs, fields: Fields, ignored: set<string>): (r: Attrs)
    ensures SetsAll(r, fields, ignored)
    ensures Keeps(attrs, r, ignored)
    ensures Keeps(attrs, r, r.Keys - fields.Keys)
    ensures r.Keys == attrs.Keys + (fields.Keys - ignored)
  {
    map k | k in attrs.Keys + (fields.Keys - ignored) :: if k in fields && k !in ignored then fields[k] else attrs[k]
  }

  /** Those properties pin the merged attributes down: nothing else satisfies them. */
  lemma MergeUnique(attrs: Attrs, fields: Fields, ignored: set<string>, r: Attrs)
    requires SetsAll(r, fields, ignored) && Keeps(attrs, r, ignored)
    requires Keeps(attrs, r, r.Keys - fields.Keys)
    requires r.Keys == attrs.Keys + (fields.Keys - ignored)
    ensures r == Merge(attrs, fields, ignored)
  {
    var m := Merge(attrs, fields, ignored);
    forall k | k in r.Keys
      ensures r[k] == m[k]
    {
      if k in fields && k !in ignored {
      } else if k in ignored {
        assert k in attrs;
      } else {
        assert k in r.Keys - fields.Keys;
      }
    }
  }

  /** Sending the same update twice leaves the object as sending it once. */
  lemma MergeIdempotent(attrs: Attrs, fields: Fields, ignored: set<string>)
    ensures Merge(Merge(attrs, fields, ignored), fields, ignored) == Merge(attrs, fields, ignored)
  {
    var once := Merge(attrs, fields, ignored);
    var twice := Merge(once, fields, ignored);
    assert twice.Keys == once.Keys;
    forall k | k in once.Keys
      ensures twice[k] == once[k]
    {
    }
  }

  /**
   * The exception `setattr(obj, name, value)` raises for a JSON value, on
   * the names where it raises: `__class__` takes only a class and `__dict__`
   * only a dict (TypeError), while `__weakref__` on any instance and a
   * file-mode City's `places` are descriptors without a setter
   * (AttributeError).
   */
  function SetattrError(kind: Kind, engine: EngineKind, name: string): (r: Option<string>)
    ensures r.Some? <==>
      name == "__class__" || name == "__dict__" || name == "__weakref__" || (kind == City && engine == FileEngine && name == "places")
    ensures r == Some("TypeError") <==> name == "__class__" || name == "__dict__"
    ensures r == Some("AttributeError") <==>
      name == "__weakref__" || (kind == City && engine == FileEngine && name == "places")
    ensures r.Some? ==> r.value == "TypeError" || r.value == "AttributeError"
  {
    if name == "__class__" || name == "__dict__" then Some("TypeError")
    else if name == "__weakref__" || (kind == City && engine == FileEngine && name == "places") then Some("AttributeError")
    else None
  }

  /**
   * What the loop hands to `setattr` for each body key: the body's value, or
   * (for `update_user`'s `password`) a value computed from it, or the
   * exception computing it raises.
   */
  type Values = map<string, Result<Value>>

  /** The body's values as they are, none of them raising. */
  function Plain(fields: Fields): (r: Values)
    ensures r.Keys == fields.Keys
    ensures forall k | k in r :: r[k] == Ok(fields[k])
  {
    map k | k in fields :: Ok(fields[k])
  }

  /** The values that were computed without raising. */
  function OkValues(values: Values): (r: Fields)
    ensures forall k :: k in r <==> k in values && values[k].Ok?
    ensures forall k | k in r :: values[k] == Ok(r[k])
  {
    map k | k in values && values[k].Ok? :: values[k].value
  }

  /** The entries of `f` whose key occurs in `keys`. */
  function Restrict(f: Fields, keys: seq<string>): (r: Fields)
    ensures forall k :: k in r <==> k in f && k in keys
    ensures forall k | k in r :: r[k] == f[k]
  {
    map k | k in f && k in keys :: f[k]
  }

  /**
   * Where an update stands: the object's attributes in memory, the
   * attributes its last `save()` stored, and the exception that ended the
   * handler, if one did.
   */
  datatype Progress = Progress(current: Attrs, saved: Attrs, error: Option<string>)

  /**
   * One pass of the loop body for the body key `k`. Handlers with `saveEach`
   * call `obj.save()` right after each `setattr`; an attribute `save` on the
   * object shadows that method, and calling a JSON value raises TypeError.
   */
  function Advance(kind: Kind, engine: EngineKind, p: Progress, k: string, values: Values,
                   ignored: set<string>, saveEach: bool): Progress
    requires k in values
  {
    if k in ignored then p
    else match values[k]
      case Raised(e) => Progress(p.current, p.saved, Some(e))
      case Ok(v) =>
        if SetattrError(kind, engine, k).Some? then Progress(p.current, p.saved, SetattrError(kind, engine, k))
        else
          var next := p.current[k := v];
          if !saveEach then Progress(next, p.saved, None)
          else if "save" in next then Progress(next, p.saved, Some("TypeError"))
          else Progress(next, next, None)
  }

  /**
   * `for key, value in data.items(): ...` over `keys`, the body's keys in
   * their iteration order, from the attributes `attrs`: the loop stops at
   * the first exception.
   */
  function Loop(kind: Kind, engine: EngineKind, attrs: Attrs, keys: seq<string>, values: Values,
                ignored: set<string>, saveEach: bool): Progress
    requires forall i | 0 <= i < |keys| :: keys[i] in values
  {
    if keys == [] then Progress(attrs, attrs, None)
    else
      var p := Loop(kind, engine, attrs, keys[..|keys| - 1], values, ignored, saveEach);
      if p.error.Some? then p else Advance(kind, engine, p, keys[|keys| - 1], values, ignored, saveEach)
  }

  /**
   * The whole update: the loop, followed, in the handlers that save once
   * after it, by that `obj.save()`.
   */
  function Update(kind: Kind, engine: EngineKind, attrs: Attrs, keys: seq<string>, values: Values,
                  ignored: set<string>, saveEach: bool): Progress
    requires forall i | 0 <= i < |keys| :: keys[i] in values
  {
    var p := Loop(kind, engine, attrs, keys, values, ignored, saveEach);
    if saveEach || p.error.Some? then p
    else if "save" in p.current then Progress(p.current, p.saved, Some("TypeError"))
    else Progress(p.current, p.current, None)
  }

  /**
   * The response to an update: the exception as a 500, otherwise
   * `jsonify(obj.to_dict())` with 200, which raises TypeError as well when
   * an attribute `to_dict` shadows the method.
   */
  function Respond(id: string, p: Progress): (o: Outcome)
    ensures o.Success? <==> p.error.None? && "to_dict" !in p.current
    ensures o.Success? ==> o == Success(200, Item(id, p.current))
    ensures !o.Success? ==> o.ServerError?
  {
    if p.error.Some? then ServerError(p.error.value)
    else if "to_dict" in p.current then ServerError("TypeError")
    else Success(200, Item(id, p.current))
  }

  /** No key of `keys` outside `ignored` has a value that raises or a `setattr` that raises. */
  ghost predicate Clean(kind: Kind, engine: EngineKind, keys: seq<string>, values: Values, ignored: set<string>)
    requires forall i | 0 <= i < |keys| :: keys[i] in values
  {
    forall i | 0 <= i < |keys| && keys[i] !in ignored ::
      values[keys[i]].Ok? && SetattrError(kind, engine, keys[i]).None?
  }

  /**
   * An update goes through: every body key outside `ignored` has a value
   * and a `setattr` that do not raise, the merged object does not shadow
   * `to_dict`, and it does not shadow `save` either whenever `save()` is
   * called (always when it comes once after the loop; after each key set
   * otherwise).
   */
  ghost predicate Accepted(kind: Kind, engine: EngineKind, attrs: Attrs, values: Values, ignored: set<string>, saveEach: bool) {
    && (forall k | k in values && k !in ignored :: values[k].Ok? && SetattrError(kind, engine, k).None?)
    && (!saveEach || (exists k | k in values :: k !in ignored) ==> "save" !in Merge(attrs, OkValues(values), ignored))
    && "to_dict" !in Merge(attrs, OkValues(values), ignored)
  }

  /** Merging one more entry: an ignored key changes nothing, any other key is set. */
  lemma MergeSnoc(attrs: Attrs, f: Fields, k: string, v: Value, ignored: set<string>)
    ensures k in ignored ==> Merge(attrs, f[k := v], ignored) == Merge(attrs, f, ignored)
    ensures k !in ignored ==> Merge(attrs, f[k := v], ignored) == Merge(attrs, f, ignored)[k := v]
  {
  }

  lemma RestrictSnoc(f: Fields, keys: seq<string>, k: string)
    ensures k in f ==> Restrict(f, keys + [k]) == Restrict(f, keys)[k := f[k]]
    ensures k !in f ==> Restrict(f, keys + [k]) == Restrict(f, keys)
  {
  }

  /** The object with the values of `keys` that did not raise merged in. */
  function MergedSoFar(attrs: Attrs, keys: seq<string>, values: Values, ignored: set<string>): Attrs {
    Merge(attrs, Restrict(OkValues(values), keys), ignored)
  }

  lemma CleanSnoc(kind: Kind, engine: EngineKind, init: seq<string>, k: string, values: Values, ignored: set<string>)
    requires forall i | 0 <= i < |init| :: init[i] in values
    requires k in values
    ensures Clean(kind, engine, init + [k], values, ignored) <==>
      Clean(kind, engine, init, values, ignored) && (k !in ignored ==> values[k].Ok? && SetattrError(kind, engine, k).None?)
  {
    var keys := init + [k];
    if Clean(kind, engine, keys, values, ignored) {
      forall i | 0 <= i < |init| && init[i] !in ignored
        ensures values[init[i]].Ok? && SetattrError(kind, engine, init[i]).None?
      {
        assert keys[i] == init[i];
      }
      assert keys[|init|] == k;
    }
  }

  /** Some key of `keys` is outside `ignored`, so the loop sets at least one attribute. */
  ghost predicate Touched(keys: seq<string>, ignored: set<string>) {
    exists i | 0 <= i < |keys| :: keys[i] !in ignored
  }

  lemma TouchedSnoc(init: seq<string>, k: string, ignored: set<string>)
    ensures Touched(init + [k], ignored) <==> Touched(init, ignored) || k !in ignored
  {
    var keys := init + [k];
    if Touched(keys, ignored) && k in ignored {
      var i :| 0 <= i < |keys| && keys[i] !in ignored;
      assert init[i] == keys[i];
    }
    if Touched(init, ignored) {
      var i :| 0 <= i < |init| && init[i] !in ignored;
      assert keys[i] == init[i];
    }
    if k !in ignored {
      assert keys[|init|] == k;
    }
  }

  /**
   * What the loop over `keys` has done by the time it reaches `p`: it
   * finishes exactly when no key raised (nor, with `saveEach`, shadowed
   * `save` once something was set); it then holds those keys merged into
   * the object; with `saveEach` that is also what is stored, and without it
   * the store still holds the original attributes.
   */
  ghost predicate LoopDone(kind: Kind, engine: EngineKind, attrs: Attrs, keys: seq<string>,
                           values: Values, ignored: set<string>, saveEach: bool, p: Progress)
    requires forall i | 0 <= i < |keys| :: keys[i] in values
  {
    && (p.error.None? <==>
          && Clean(kind, engine, keys, values, ignored)
          && (saveEach && Touched(keys, ignored) ==> "save" !in MergedSoFar(attrs, keys, values, ignored)))
    && (p.error.None? ==> p.current == MergedSoFar(attrs, keys, values, ignored))
    && (!saveEach ==> p.saved == attrs)
    && (saveEach && p.error.None? ==> p.saved == MergedSoFar(attrs, keys, values, ignored))
  }

  /** Merging in one more key: what `MergedSoFar` becomes. */
  lemma MergedSoFarSnoc(attrs: Attrs, init: seq<string>, k: string, values: Values, ignored: set<string>)
    requires k in values
    ensures k in ignored || values[k].Raised? ==>
      MergedSoFar(attrs, init + [k], values, ignored) == MergedSoFar(attrs, init, values, ignored)
    ensures k !in ignored && values[k].Ok? ==>
      MergedSoFar(attrs, init + [k], values, ignored) == MergedSoFar(attrs, init, values, ignored)[k := values[k].value]
    ensures MergedSoFar(attrs, init, values, ignored).Keys <= MergedSoFar(attrs, init + [k], values, ignored).Keys
  {
    var f := OkValues(values);
    RestrictSnoc(f, init, k);
    if k in f {
      MergeSnoc(attrs, Restrict(f, init), k, f[k], ignored);
    }
  }

  /** One more key keeps `LoopDone`. */
  lemma LoopStep(kind: Kind, engine: EngineKind, attrs: Attrs, init: seq<string>, k: string,
                 values: Values, ignored: set<string>, saveEach: bool, p: Progress)
    requires forall i | 0 <= i < |init| :: init[i] in values
    requires k in values
    requires LoopDone(kind, engine, attrs, init, values, ignored, saveEach, p)
    ensures forall i | 0 <= i < |init + [k]| :: (init + [k])[i] in values
    ensures LoopDone(kind, engine, attrs, init + [k], values, ignored, saveEach,
                     if p.error.Some? then p else Advance(kind, engine, p, k, values, ignored, saveEach))
  {
    var keys := init + [k];
    assert forall i | 0 <= i < |keys| :: keys[i] in values by {
      forall i | 0 <= i < |keys| ensures keys[i] in values {
        if i < |init| { assert keys[i] == init[i]; }
      }
    }
    CleanSnoc(kind, engine, init, k, values, ignored);
    TouchedSnoc(init, k, ignored);
    MergedSoFarSnoc(attrs, init, k, values, ignored);
    if p.error.None? && k !in ignored {
      var err := SetattrError(kind, engine, k);
      if values[k].Raised? || err.Some? {
        assert !Clean(kind, engine, keys, values, ignored);
      }
    }
  }

  /** The loop over a prefix of the body's keys does what `LoopDone` says. */
  lemma {:induction false} LoopMeaning(kind: Kind, engine: EngineKind, attrs: Attrs, keys: seq<string>,
                                       values: Values, ignored: set<string>, saveEach: bool)
    requires forall i | 0 <= i < |keys| :: keys[i] in values
    ensures LoopDone(kind, engine, attrs, keys, values, ignored, saveEach,
                     Loop(kind, engine, attrs, keys, values, ignored, saveEach))
  {
    if keys != [] {
      var init := keys[..|keys| - 1];
      var k := keys[|keys| - 1];
      assert keys == init + [k];
      LoopMeaning(kind, engine, attrs, init, values, ignored, saveEach);
      LoopStep(kind, engine, attrs, init, k, values, ignored, saveEach,
               Loop(kind, engine, attrs, init, values, ignored, saveEach));
    }
  }

  /** Once the loop has raised, the keys after that point are never reached. */
  lemma {:induction false} LoopSettled(kind: Kind, engine: EngineKind, attrs: Attrs, keys: seq<string>,
                                       values: Values, ignored: set<string>, saveEach: bool, j: nat)
    requires forall i | 0 <= i < |keys| :: keys[i] in values
    requires j <= |keys|
    requires Loop(kind, engine, attrs, keys[..j], values, ignored, saveEach).error.Some?
    ensures Loop(kind, engine, attrs, keys, values, ignored, saveEach) == Loop(kind, engine, attrs, keys[..j], values, ignored, saveEach)
    decreases |keys| - j
  {
    if j < |keys| {
      assert keys[..|keys| - 1][..j] == keys[..j];
      LoopSettled(kind, engine, attrs, keys[..|keys| - 1], values, ignored, saveEach, j);
    } else {
      assert keys[..j] == keys;
    }
  }

  /**
   * With `saveEach`, when the key at position `j` is the first to raise,
   * the store keeps every key before it and none from it on.
   */
  lemma PartialSave(kind: Kind, engine: EngineKind, attrs: Attrs, keys: seq<string>,
                    values: Values, ignored: set<string>, j: nat)
    requires forall i | 0 <= i < |keys| :: keys[i] in values
    requires j < |keys|
    requires Loop(kind, engine, attrs, keys[..j], values, ignored, true).error.None?
    requires Loop(kind, engine, attrs, keys[..j + 1], values, ignored, true).error.Some?
    ensures Update(kind, engine, attrs, keys, values, ignored, true).error.Some?
    ensures Update(kind, engine, attrs, keys, values, ignored, true).saved == MergedSoFar(attrs, keys[..j], values, ignored)
  {
    LoopMeaning(kind, engine, attrs, keys[..j], values, ignored, true);
    assert keys[..j + 1][..j] == keys[..j];
    LoopSettled(kind, engine, attrs, keys, values, ignored, true, j + 1);
  }

  /**
   * An update over all of the body's keys succeeds exactly when it is
   * accepted, and then stores the body merged into the object. With
   * `saveEach` unset, a failure in the loop or in the `save()` after it
   * leaves the stored object as it was.
   */
  lemma UpdateMeaning(kind: Kind, engine: EngineKind, attrs: Attrs, keys: seq<string>,
                      values: Values, ignored: set<string>, saveEach: bool)
    requires forall k :: k in keys <==> k in values
    ensures var p := Update(kind, engine, attrs, keys, values, ignored, saveEach);
      && (p.error.None? && "to_dict" !in p.current <==> Accepted(kind, engine, attrs, values, ignored, saveEach))
      && (Accepted(kind, engine, attrs, values, ignored, saveEach) ==>
            var m := Merge(attrs, OkValues(values), ignored);
            p == Progress(m, m, None))
      && (!saveEach && p.error.Some? ==> p.saved == attrs)
      && (p.error.None? ==> p.saved == p.current && p.current == Merge(attrs, OkValues(values), ignored))
  {
    LoopMeaning(kind, engine, attrs, keys, values, ignored, saveEach);
    assert Restrict(OkValues(values), keys) == OkValues(values);
    AllKeys(kind, engine, keys, values, ignored);
  }

  /** Over all of the body's keys, `Clean` and `Touched` speak of every body key. */
  lemma AllKeys(kind: Kind, engine: EngineKind, keys: seq<string>, values: Values, ignored: set<string>)
    requires forall k :: k in keys <==> k in values
    ensures Clean(kind, engine, keys, values, ignored) <==>
      forall k | k in values && k !in ignored :: values[k].Ok? && SetattrError(kind, engine, k).None?
    ensures Touched(keys, ignored) <==> exists k | k in values :: k !in ignored
  {
    if Clean(kind, engine, keys, values, ignored) {
      forall k | k in values && k !in ignored
        ensures values[k].Ok? && SetattrError(kind, engine, k).None?
      {
        var i :| 0 <= i < |keys| && keys[i] == k;
      }
    }
    if Touched(keys, ignored) {
      var i :| 0 <= i < |keys| && keys[i] !in ignored;
      assert keys[i] in values;
    }
    if exists k | k in values :: k !in ignored {
      var k :| k in values && k !in ignored;
      var i :| 0 <= i < |keys| && keys[i] == k;
    }
  }

  /** A second update of the same key overrides the first. */
  lemma UpdateTwice<K, V>(m: map<K, V>, k: K, first: V, second: V)
    ensures m[k := first][k := second] == m[k := second]
  {
  }

  /**
   * The update handlers' loop over the body's keys in the order `keys`
   * (`for key, value in data.items(): if key not in ignored: setattr(...)`,
   * with `obj.save()` after each `setattr` or once after the loop), on the
   * stored object under `key`. The store ends up with what the last
   * `save()` stored.
   */
  method SetAttributes(s: Storage, key: Key, keys: seq<string>, values: Values, ignored: set<string>, saveEach: bool)
    returns (p: Progress)
    requires s.Valid() && key in s.objects
    requires forall i | 0 <= i < |keys| :: keys[i] in values
    modifies s
    ensures s.Valid()
    ensures p == Update(key.kind, s.engine, old(s.objects[key]), keys, values, ignored, saveEach)
    ensures s.View() == Updated(old(s.View()), key, p.saved)
  {
    var attrs := s.objects[key];
    p := Progress(attrs, attrs, None);
    var i := 0;
    while i < |keys| && p.error.None?
      invariant 0 <= i <= |keys|
      invariant p == Loop(key.kind, s.engine, attrs, keys[..i], values, ignored, saveEach)
      invariant s.Valid() && s.order == old(s.order)
      invariant s.objects == old(s.objects)[key := p.saved]
    {
      var k := keys[i];
      assert keys[..i + 1][..i] == keys[..i];
      if k !in ignored {
        match values[k]
        case Raised(e) =>
          p := Progress(p.current, p.saved, Some(e));
        case Ok(v) =>
          var failure := SetattrError(key.kind, s.engine, k);
          if failure.Some? {
            p := Progress(p.current, p.saved, failure);
          } else {
            var next := p.current[k := v];
            if !saveEach {
              p := Progress(next, p.saved, None);
            } else if "save" in next {
              p := Progress(next, p.saved, Some("TypeError"));
            } else {
              s.Save(key, next);
              UpdateTwice(old(s.objects), key, p.saved, next);
              p := Progress(next, next, None);
            }
          }
      }
      i := i + 1;
    }
    if i < |keys| {
      LoopSettled(key.kind, s.engine, attrs, keys, values, ignored, saveEach, i);
    } else {
      assert keys[..i] == keys;
    }
    if !saveEach && p.error.None? {
      if "save" in p.current {
        p := Progress(p.current, p.saved, Some("TypeError"));
      } else {
        s.Save(key, p.current);
        UpdateTwice(old(s.objects), key, p.saved, p.current);
        p := Progress(p.current, p.current, None);
      }
    }
  }

  /**
   * The part every update handler shares once the object is found and the
   * body is a non-empty object: the loop over the body's keys, then
   * `jsonify(obj.to_dict())` with 200. It succeeds exactly when the update
   * is `Accepted`, and then stores and returns the body merged into the
   * object; otherwise it answers 500 and the store holds what the last
   * `save()` stored.
   */
  method UpdateObject(s: Storage, key: Key, id: string, keys: seq<string>, values: Values,
                      ignored: set<string>, saveEach: bool) returns (o: Outcome)
    requires s.Valid() && key in s.objects
    requires forall k :: k in keys <==> k in values
    modifies s
    ensures s.Valid()
    ensures var p := Update(key.kind, s.engine, old(s.objects[key]), keys, values, ignored, saveEach);
      o == Respond(id, p) && s.View() == Updated(old(s.View()), key, p.saved)
    ensures o.Success? <==> Accepted(key.kind, s.engine, old(s.objects[key]), values, ignored, saveEach)
    ensures o.Success? ==>
      && o == Success(200, Item(id, s.objects[key]))
      && s.View() == Updated(old(s.View()), key, Merge(old(s.objects[key]), OkValues(values), ignored))
      && Keeps(old(s.objects[key]), s.objects[key], ignored)
      && SetsAll(s.objects[key], OkValues(values), ignored)
    ensures !o.Success? ==> o.ServerError?
    ensures !saveEach && Update(key.kind, s.engine, old(s.objects[key]), keys, values, ignored, saveEach).error.Some? ==>
      s.View() == old(s.View())
  {
    UpdateMeaning(key.kind, s.engine, s.objects[key], keys, values, ignored, saveEach);
    assert s.objects[key := s.objects[key]] == s.objects;
    var p := SetAttributes(s, key, keys, values, ignored, saveEach);
    o := Respond(id, p);
  }
}
